=== FILE: README.md ===
# Kanban board: a Dafny model of its board commands and drag tracker

The application is a kanban board. A board is an ordered list of columns. Each
column has an id, a title and an ordered list of cards, and each card has an id
and a text. There are seven board commands: add, delete and rename a column;
add and delete a card; move a card; and reorder the columns. They appear in
three places:

- server actions that load the board file, transform it and write it back
  (all seven);
- the `useKanban` hook, together with the `useDragAndDrop` drag tracker it
  delegates drops to (the TypeScript tracker and its JavaScript twin); the
  tracker's column drop is the reorder (all seven);
- the older inline `Board` component, which has the first six and no
  column reorder.

The model has eight modules, one file each:

- `Seqs` (`seqs.dfy`): the sequence operations the code uses through
  JavaScript arrays. These are `map`, `filter`, and `splice` used to remove one
  element or insert one. The module states what `filter` promises, and that a
  remove-then-insert splice is a permutation that rotates a segment.
- `Kanban` (`kanban.dfy`): the types (`Card`, `Column`, `DraggedCard`, and
  `Board = seq<Column>`) and one pure function per board transform. The
  `ensures` clauses of the column commands, of `AddCard`, `DeleteCard`,
  `ReorderColumns` and of the card-drop board state the effect column by
  column. For the server's `MoveCard` they state only that the shape is kept
  and that an absent card changes nothing; its effect on the cards is stated
  by the lemmas in `KanbanProperties`. The module also models `trim()` over
  the ECMAScript whitespace set, and the card each move handler captures
  while mapping.
- `KanbanProperties` (`kanban_properties.dfy`): lemmas relating the transforms
  to each other and to the board invariant. The invariant is that column ids
  are unique and card ids are unique across the board.
  - Every transform keeps that invariant, provided the id generator hands out
    an id not yet on the board. This includes the inline component's
    unchecked card add, whatever its text.
  - Cards are conserved by reorders, and by moves on a board with unique ids
    whose target column exists; a move to a missing column loses the card.
  - The server's card move and the drag tracker's card drop compute the same
    board on boards with unique ids. They can differ when two columns share
    the origin id: the drop records the card found in the last such column
    only, so a card held by an earlier one is removed and not re-added,
    whereas the server keeps the last match it saw.
- `ServerActions` (`server_actions.dfy`): a `Store` class. Its `document` field
  stands for the board file. Each action is a method that reads the current
  board, computes the same board as the `Kanban` function, and writes it back
  only when the source does.
  - `moveCard` keeps the source's nested filter loop, which captures the card
    as it goes.
  - `reorderColumns` keeps its two splices on a copy.
- `DragAndDrop` (`use_drag_and_drop.dfy`): the drag tracker as a class with
  two slots, its five handlers as methods, and its three predicates. The
  card-drop computation is two methods, one loop per `map` pass, proved
  against `Kanban.DeleteCard`, `Kanban.FindInLastColumn` and
  `Kanban.AppendCard`; together they compute `Kanban.DropCardColumns`. The
  guards of both drop handlers are named predicates (`CardDropApplies`,
  `ColumnDropApplies`), and the highlighting predicates are proved against
  them.
- `DragAndDropJs` (`use_drag_and_drop_js.dfy`): the JavaScript twin. Its state
  and handlers are those of `DragAndDrop.DragTracker`. Only its
  `isColumnDropTarget` differs: it tests the dragged column id for
  truthiness. The module proves the two predicates agree except while the
  empty id is being dragged.
- `UseKanban` (`use_kanban.dfy`): the hook as a class. It holds the board, the
  new-column input and the tracker, and each handler is a method.
- `BoardJsx` (`board_jsx.dfy`): the inline component as a class. It holds the
  board, the new-column input and the dragged card. Its `addCard` has no blank
  check; a lemma relates it to the checked command.

The id generator (`uid()`, which uses `Math.random`) is an extra `freshId`
parameter on every command that creates a column or card. Freshness is not
required by the commands. It is assumed only by the lemmas about uniqueness
(`freshId !in ColumnIds(b)`, `freshId !in CardIds(Flatten(b))`).

## Model

| member | source | states |
|---|---|---|
| Kanban.IndexOf | src/lib/actions.ts:106-107 | `findIndex`: -1 exactly when no column has the id; otherwise the position of the first column with it |
| KanbanProperties.BlankIffAllWhitespace | src/lib/actions.ts:9 | a title is blank (rejected by `!title.trim()`) exactly when every character is whitespace |
| KanbanProperties.TrimStartEmpty | src/lib/actions.ts:9 | trimming the front leaves nothing exactly when every character is whitespace, and otherwise starts at a non-whitespace character |
| KanbanProperties.TrimEndEmpty | src/lib/actions.ts:9 | trimming the back leaves nothing exactly when every character is whitespace |
| Kanban.Trim | src/lib/actions.ts:9 | `trim()`: strips leading and trailing ECMAScript whitespace (its contract is stated by the lemmas below) |
| Kanban.Blank | src/lib/actions.ts:9 | `!title.trim()`: the trimmed string is empty |
| KanbanProperties.TrimStartDrops | src/lib/actions.ts:9 | trimming the front drops a prefix made only of whitespace and keeps the rest as it is |
| KanbanProperties.TrimEndDrops | src/lib/actions.ts:9 | trimming the back drops a suffix made only of whitespace, keeps the rest as it is, and what it keeps does not end in whitespace |
| KanbanProperties.TrimStripsBothEnds | src/lib/actions.ts:9 | `trim()` returns a slice of its input with only whitespace cut off on either side, and a non-empty result starts and ends with a non-whitespace character |
| Kanban.AddColumn | src/lib/actions.ts:8-17 | `None` exactly for a blank title; otherwise the old columns in order, followed by one new column with the fresh id, the untrimmed title and no cards |
| KanbanProperties.AddColumnKeepsUnique | src/lib/actions.ts:11-13 | with a fresh id the column ids become the old ones plus the new id last, no card is added or lost, and ids stay unique |
| Kanban.DeleteColumn | src/lib/actions.ts:20-26 | the result is a subsequence of the board (relative order kept) with no column carrying the id, and every other column appears exactly as often as before |
| KanbanProperties.DeleteColumnKeepsOthers | src/lib/actions.ts:22 | every column with another id survives, and an unknown id leaves the board unchanged |
| KanbanProperties.DeleteColumnKeepsUnique | src/lib/actions.ts:22 | deleting a column keeps ids unique |
| Kanban.RenameColumn | src/lib/actions.ts:29-37 | same length, ids and card lists; only the columns with the id get the new title, with no blank check |
| KanbanProperties.RenameColumnKeepsUnique | src/lib/actions.ts:31-33 | renaming keeps the column ids and the cards, so uniqueness holds after exactly when it held before |
| KanbanProperties.RenamedFlatten | src/lib/actions.ts:31-33 | renaming leaves the board's cards, in order, unchanged |
| Kanban.AddCard | src/lib/actions.ts:41-53 | `None` exactly for blank content; otherwise ids and titles are kept, columns with other ids are unchanged, and each column with the id gets the new card last |
| KanbanProperties.AddCardAppendsOnce | src/lib/actions.ts:44-49 | with unique ids and a fresh card id, the card is appended to the one column with the id, it is the only card the board gains, and ids stay unique |
| KanbanProperties.AppendFreshCard | src/lib/actions.ts:44-49 | appending a card with an unused id to the one column with the target id adds exactly that card to the board and keeps ids unique |
| KanbanProperties.AddCardUnknownColumn | src/lib/actions.ts:45-49 | adding to a column id that is not on the board leaves the board unchanged |
| Kanban.DeleteCard | src/lib/actions.ts:56-66 | ids and titles are kept, other columns are unchanged, and each column with the id keeps a subsequence of its cards without the card id in which every other card occurs exactly as often as before |
| KanbanProperties.DeleteCardRemovesOne | src/lib/actions.ts:58-62 | with unique ids, deleting the card at position k of a column removes exactly that card and nothing else |
| KanbanProperties.DeleteCardAbsent | src/lib/actions.ts:58-62 | deleting a card that is not in the column leaves the board unchanged |
| KanbanProperties.DeleteCardKeepsUnique | src/lib/actions.ts:58-62 | deleting a card keeps ids unique |
| Kanban.LastCardWithId | src/lib/actions.ts:77-83 | the card the filter callback of one column leaves in `movedCard`: `None` exactly when no card has the id; otherwise a card of the column with that id after which no card has the id, i.e. the last match |
| Kanban.LastMatch | src/lib/actions.ts:72-87 | the card `moveCard` captures: `None` exactly when no origin column holds the card id, otherwise a card with that id |
| KanbanProperties.LastMatchIsLastOriginMatch | src/lib/actions.ts:72-87 | whatever the ids, a captured card is the last match in an origin column after which no origin column holds the card id |
| Kanban.FindCard | src/hooks/useDragAndDrop.ts:25 | `find`: `None` exactly when no card has the id; otherwise a card with that id before which no card has the id, i.e. the first match |
| Kanban.FindInLastColumn | src/hooks/useDragAndDrop.ts:22-32 | the card a card drop records: `None` when no origin column holds the card id, and when a card is recorded it has that id (which card, and when it is `None`, is stated by the two lemmas below) |
| KanbanProperties.FindInLastColumnIsLastOriginFirst | src/hooks/useDragAndDrop.ts:22-32 | whatever the ids, a recorded card is the first match in the last column with the origin id |
| KanbanProperties.FindInLastColumnIsLastOrigin | src/hooks/useDragAndDrop.ts:23-25 | the recorded card is the `find` result of the last column with the origin id, so it is `None` when that column lacks the card even if an earlier origin column holds it (where the server's capture finds it) |
| KanbanProperties.FindInLastColumnNoOrigin | src/hooks/useDragAndDrop.ts:22-32 | with no column carrying the origin id, nothing is recorded |
| Kanban.MoveCard | src/lib/actions.ts:70-101 | the board is returned unchanged when no origin column holds the card; the length, ids and titles are always kept |
| KanbanProperties.MoveCardBetweenColumns | src/lib/actions.ts:75-98 | with unique ids, the card leaves its origin and becomes the last card of the target; nothing else changes, cards are conserved and ids stay unique |
| KanbanProperties.MoveCardWithinColumn | src/lib/actions.ts:75-98 | on a board with unique ids, a move onto its own column sends the card to that column's tail, conserving cards and uniqueness |
| KanbanProperties.MoveCardToMissingColumn | src/lib/actions.ts:90-98 | on a board with unique ids, a move to a column id not on the board removes the card from its origin and adds it nowhere, so the board has one card fewer |
| KanbanProperties.MoveCardKeepsUnique | src/lib/actions.ts:70-101 | for every card, origin and target id, `moveCard` on a board with unique ids gives a board with unique ids |
| KanbanProperties.MovedCardIsCaptured | src/lib/actions.ts:75-87 | with unique ids, both the server's capture and the tracker's capture find exactly the card at the given position |
| KanbanProperties.LastMatchAt | src/lib/actions.ts:75-87 | when only one column has the origin id, the server's capture is the last match in that column |
| KanbanProperties.LastAndFirstMatchAt | src/hooks/useDragAndDrop.ts:25 | with distinct card ids, the last match (server) and the first match (`find`) are the same card |
| KanbanProperties.FindInLastColumnAt | src/hooks/useDragAndDrop.ts:22-32 | when only one column has the origin id, the tracker's capture is the first match in that column |
| ServerActions.FilterCapture | src/lib/actions.ts:77-83 | the filter loop over one origin column keeps the other cards in order, and leaves the last match, or the previous capture when there is none, in `movedCard` |
| Kanban.ReorderColumns | src/lib/actions.ts:104-117 | unchanged when either id is missing; otherwise a permutation of the same length with the dragged column at the target's original index, the rest in their old order |
| Seqs.SpliceMove | src/lib/actions.ts:111-113 | the two splices yield a permutation, with the removed element at the insertion index and the other elements in order |
| Seqs.SpliceMoveRotates | src/lib/actions.ts:111-113 | the two splices rotate the segment between the two indices by one, and leave the sequence unchanged when the indices coincide |
| KanbanProperties.ReorderColumnsKeepsUnique | src/lib/actions.ts:111-113 | reordering conserves the cards and keeps ids unique |
| KanbanProperties.ReorderOntoItself | src/lib/actions.ts:104-117 | reordering a column onto itself gives back the same board |
| Seqs.FilterSpec | src/lib/actions.ts:22 | `filter` returns the elements that pass, in their original order, each as often as in the input, and nothing else |
| Seqs.FilterRejectsOne | src/lib/actions.ts:60 | filtering out the only element that fails removes exactly that element |
| KanbanProperties.FlattenAppendCard | src/lib/actions.ts:47 | appending a card to one column adds exactly that card to the board's cards |
| KanbanProperties.FlattenRemoveCard | src/lib/actions.ts:60 | removing the card at a position removes exactly that card from the board's cards |
| KanbanProperties.FlattenMonotone | src/lib/actions.ts:22 | a sub-multiset of the columns holds a sub-multiset of the cards |
| KanbanProperties.ConservedCardsKeepUnique | src/lib/actions.ts:75-98 | a board with the same column ids and no card occurring more often than before keeps ids unique |
| KanbanProperties.SeedUnique | src/lib/storage.ts:11-15 | the seed board (To Do with one sample card, In Progress, Done) has unique ids when its three column ids differ |
| Kanban.Seed | src/lib/storage.ts:11-15 | the default board: To Do holding one sample card, In Progress and Done, with ids given by the caller |
| ServerActions.Store.Current | src/lib/storage.ts:28-37 | `getColumns`: the stored document, or the seed board when there is none |
| ServerActions.Store.AddColumn | src/lib/actions.ts:8-17 | returns `Kanban.AddColumn` of the current board; a blank title leaves the stored document as it was, otherwise the new board is stored |
| ServerActions.Store.DeleteColumn | src/lib/actions.ts:20-26 | returns and stores `Kanban.DeleteColumn` of the current board |
| ServerActions.Store.RenameColumn | src/lib/actions.ts:29-37 | returns and stores `Kanban.RenameColumn` of the current board |
| ServerActions.Store.AddCard | src/lib/actions.ts:41-53 | returns `Kanban.AddCard` of the current board; blank content leaves the document as it was, otherwise the new board is stored |
| ServerActions.Store.DeleteCard | src/lib/actions.ts:56-66 | returns and stores `Kanban.DeleteCard` of the current board |
| ServerActions.Store.MoveCard | src/lib/actions.ts:70-101 | the nested filter loop returns `Kanban.MoveCard` of the current board; the board is stored exactly when a card was captured |
| ServerActions.Store.ReorderColumns | src/lib/actions.ts:104-117 | returns `Kanban.ReorderColumns` of the current board; stored exactly when both ids are on it |
| ServerActions.Store.constructor | src/lib/storage.ts:11-15 | the store starts from a given document (`None` for a missing or unreadable file) and the seed board `Kanban.Seed` built from four given ids, which is what `getColumns` reads in that case |
| DragAndDrop.DragTracker.constructor | src/hooks/useDragAndDrop.ts:5-6 | both slots start empty |
| DragAndDrop.DragTracker.CardDragStart | src/hooks/useDragAndDrop.ts:9-11 | the card slot is overwritten; the column slot is untouched; the JavaScript twin (`src/hooks/useDragAndDrop.js` lines 8-10) does the same |
| DragAndDrop.DragTracker.CardDrop | src/hooks/useDragAndDrop.ts:13-42 | when `CardDropApplies` fails (no dragged card, or a drop onto its origin column) nothing is handed back and the card slot stays; otherwise the card-drop board is handed back and the card slot cleared; the column slot is never touched; the JavaScript twin (`src/hooks/useDragAndDrop.js` lines 12-37) does the same |
| DragAndDrop.DropCard | src/hooks/useDragAndDrop.ts:21-38 | the two chained `map` passes compute `Kanban.DropCardColumns` |
| DragAndDrop.StripCard | src/hooks/useDragAndDrop.ts:22-32 | the first `map` loop: the board is `Kanban.DeleteCard` of the input and the recorded card is `Kanban.FindInLastColumn` of it |
| DragAndDrop.AppendCaptured | src/hooks/useDragAndDrop.ts:33-38 | the second `map` loop: with no recorded card the board is unchanged; otherwise it is `Kanban.AppendCard` of the recorded card to the target |
| Kanban.DropCardColumns | src/hooks/useDragAndDrop.ts:21-38 | the card-drop board: same length, ids and titles; columns that are neither origin nor target unchanged; an origin column that is not the target loses every card with the id and keeps every other card as often as before, in order; with nothing recorded every non-origin column is unchanged; otherwise a target column that is not an origin gets the recorded card last |
| DragAndDrop.CardDropApplies | src/hooks/useDragAndDrop.ts:18-19 | both guards of `handleCardDrop` pass: a card is dragged and the target is not its origin |
| DragAndDrop.ColumnDropApplies | src/hooks/useDragAndDrop.ts:54-60 | every guard of `handleColumnDrop` passes: a non-empty id is dragged onto another column, and both are on the board |
| KanbanProperties.DropCardMatchesMoveCard | src/hooks/useDragAndDrop.ts:21-38 | on a board with unique ids, a card drop computes the same board as the server's `moveCard` |
| KanbanProperties.DropCardAbsent | src/hooks/useDragAndDrop.ts:25-40 | when the card is no longer in its origin column the drop hands back the board unchanged |
| DragAndDrop.DragTracker.ColumnDragStart | src/hooks/useDragAndDrop.ts:45-47 | the column slot is overwritten; the card slot is untouched; the JavaScript twin (`src/hooks/useDragAndDrop.js` lines 40-42) does the same |
| DragAndDrop.DragTracker.ColumnDrop | src/hooks/useDragAndDrop.ts:49-74 | nothing is handed back and the column slot stays when no non-empty id is dragged, it is dropped on itself, or either id is missing; otherwise `Kanban.ReorderColumns` is handed back and the slot cleared; the JavaScript twin (`src/hooks/useDragAndDrop.js` lines 44-65) does the same |
| DragAndDrop.DragTracker.ColumnDragEnd | src/hooks/useDragAndDrop.ts:76-78 | clears the column slot only; the JavaScript twin (`src/hooks/useDragAndDrop.js` lines 67-69) does the same |
| DragAndDrop.DragTracker.IsColumnDragged | src/hooks/useDragAndDrop.ts:88 | `isColumnDragged`: the column slot holds this id |
| DragAndDrop.DragTracker.IsCardDraggedOverColumn | src/hooks/useDragAndDrop.ts:89-90 | `isCardDraggedOverColumn`: a card from another column is being dragged |
| DragAndDrop.DragTracker.IsColumnDropTarget | src/hooks/useDragAndDrop.ts:91 | `isColumnDropTarget`: some other id, the empty one included, is in the column slot |
| DragAndDrop.CardDropTargetsAreAccepted | src/hooks/useDragAndDrop.ts:89-90 | a column is highlighted for a card drag exactly when `CardDropApplies` holds for it, the condition under which `CardDrop` hands back a new board |
| DragAndDrop.ColumnDropTargets | src/hooks/useDragAndDrop.ts:88-91 | the dragged column is never its own drop target; a target exists only while a column is dragged; on any board, `ColumnDrop` accepts a drop exactly on a highlighted column when the dragged id is non-empty and both ids are on the board, so while the empty id is dragged every other column is highlighted yet the drop is ignored |
| DragAndDropJs.ColumnDropTargetVersusTs | src/hooks/useDragAndDrop.js:79-82 | the truthiness-based `isColumnDropTarget` agrees with the TypeScript one except while the empty id is dragged, when it marks no column |
| DragAndDropJs.IsColumnDropTarget | src/hooks/useDragAndDrop.js:82 | the JavaScript `isColumnDropTarget`: a truthy (non-empty) other id is in the column slot |
| DragAndDropJs.ColumnDropTargetMatchesGuard | src/hooks/useDragAndDrop.js:44-65 | on any board, a column marked by the JavaScript predicate on which both ids are found is exactly a column `ColumnDrop` accepts the drop on |
| UseKanban.KanbanHook.constructor | src/hooks/useKanban.ts:17-23 | starts from the given board, an empty input and an idle tracker |
| UseKanban.KanbanHook.SetNewColumnTitle | src/hooks/useKanban.ts:20 | sets the input only |
| UseKanban.KanbanHook.AddColumn | src/hooks/useKanban.ts:26-30 | a blank input leaves board and input unchanged; otherwise the board becomes `Kanban.AddColumn` of the old one with the untrimmed input, and the input is cleared |
| UseKanban.KanbanHook.DeleteColumn | src/hooks/useKanban.ts:32-34 | the board becomes `Kanban.DeleteColumn` of the old one; the input is kept |
| UseKanban.KanbanHook.RenameColumn | src/hooks/useKanban.ts:36-40 | the board becomes `Kanban.RenameColumn` of the old one |
| UseKanban.KanbanHook.AddCard | src/hooks/useKanban.ts:43-48 | blank content leaves the board unchanged; otherwise the board becomes `Kanban.AddCard` of the old one |
| UseKanban.KanbanHook.DeleteCard | src/hooks/useKanban.ts:50-54 | the board becomes `Kanban.DeleteCard` of the old one |
| UseKanban.KanbanHook.CardDrop | src/hooks/useKanban.ts:57-59 | the tracker's card drop on the current board: when `CardDropApplies` fails board and card slot stay; otherwise the board becomes the card-drop board and the card slot is cleared |
| UseKanban.KanbanHook.ColumnDrop | src/hooks/useKanban.ts:62-64 | the tracker's column drop on the current board: when the guards fail board and column slot stay; otherwise the board is reordered and the slot cleared |
| BoardJsx.BoardView.constructor | src/components/Board.jsx:8-14 | starts from the given board, an empty input and no dragged card |
| BoardJsx.BoardView.SetNewColTitle | src/components/Board.jsx:91 | sets the input only |
| BoardJsx.BoardView.AddColumn | src/components/Board.jsx:17-21 | a blank input is ignored; otherwise the board becomes `Kanban.AddColumn` of the old one with the untrimmed input and the input is cleared |
| BoardJsx.BoardView.DeleteColumn | src/components/Board.jsx:24-26 | the board becomes `Kanban.DeleteColumn` of the old one |
| BoardJsx.BoardView.RenameColumn | src/components/Board.jsx:29-31 | the board becomes `Kanban.RenameColumn` of the old one |
| BoardJsx.AddCardUnchecked | src/components/Board.jsx:34-38 | same length; columns with other ids unchanged; each column with the id keeps id and title and gets the new card last, whatever its text |
| BoardJsx.AddCardUncheckedVersusChecked | src/components/Board.jsx:34-38 | for non-blank text the inline `addCard` equals the checked command; blank text is rejected there but added here; with an existing column, whatever its ids, the board gains a card |
| BoardJsx.AddCardUncheckedAppendsOnce | src/components/Board.jsx:34-38 | with unique ids and a fresh id, the inline `addCard` appends exactly one card to the one column with the id, whatever its text, and keeps ids unique |
| BoardJsx.BoardView.AddCard | src/components/Board.jsx:34-38 | the board becomes `AddCardUnchecked` of the old one |
| BoardJsx.BoardView.DeleteCard | src/components/Board.jsx:41-45 | the board becomes `Kanban.DeleteCard` of the old one |
| BoardJsx.BoardView.OnDragStart | src/components/Board.jsx:48-50 | records the dragged card; board and input untouched |
| BoardJsx.BoardView.OnDrop | src/components/Board.jsx:52-70 | when `CardDropApplies` fails (no drag, or a drop onto the origin column) nothing changes and the drag stays; otherwise the board becomes the card-drop board and the drag is cleared, even when the card was not found |
| BoardJsx.BoardView.IsDraggedOver | src/components/Board.jsx:84 | `isDraggedOver`: a card from another column is being dragged |
| BoardJsx.DraggedOverColumnsAreAccepted | src/components/Board.jsx:84 | a column shows as dragged over exactly when `CardDropApplies` holds for it, the condition under which `OnDrop` moves the card |

## Left out

- File I/O and JSON in `src/lib/storage.ts` are not modelled. The board file
  is the `Store.document` field, and a missing or unreadable file is `None`,
  which reads as the seed board. The data directory, the serialisation format
  and write failures are left out.
- `revalidatePath`, `async`/`await` and React's state batching are left out.
  Each command runs to completion before the next starts, and each handler
  sees the state the previous one left. The lost-update race between two
  concurrent server actions is therefore not represented.
- `ServerActions.Store.AddColumn`: when the file is unreadable, `getColumns`
  returns the module-level default array itself, and `push` then extends that
  shared array. The model works on values, so this aliasing is not captured.
  Only the stored result is modelled.
- "Neither reads nor writes the board" for a blank title or content is stated
  only as "the document is unchanged". A read has no observable effect in the
  model.
- "Does not mutate the input array" holds trivially: boards are immutable
  sequence values.
- `uid()` is random. It is modelled as a `freshId` parameter. Uniqueness is
  proved under the assumption that the given id is not yet on the board, so
  a collision of the random ids of up to 7 characters is not modelled.
- `Kanban.AddCard`: when several columns share the target id, the source draws
  a separate `uid()` for each of them. The model gives all of them the same
  `freshId`. With unique column ids the two agree.
- `BoardJsx.AddCardUnchecked`: the same holds for the inline `addCard`, which
  also calls `uid()` once per matching column; the model appends the same
  `freshId` to each.
- `useLocalStorage` (loading, the `isLoaded` flag and persistence) is not part
  of this model. The hook class starts from a given board.
- The seed boards of `useKanban` and `Board.jsx` draw their ids from `uid()`.
  They are a constructor parameter here. The server's seed is `Kanban.Seed`
  of four ids passed to the `Store` constructor; `SeedUnique` holds for it
  when the three column ids differ.
- JavaScript's `trim()` is modelled over the ECMAScript WhiteSpace and
  LineTerminator code points. There is no Unicode normalisation.
- The JavaScript tracker is not a separate class. Its state, handlers,
  `isColumnDragged` and `isCardDraggedOverColumn` coincide with the TypeScript
  ones, because a dragged-card object is always truthy. Only
  `isColumnDropTarget` differs, and it is modelled in `DragAndDropJs`.
- `BoardJsx.BoardView.AddCard`: cards in `Board.jsx` carry their text in a
  `text` field, which is modelled as `Card.content`.
- The rendering components, the view-level input guards in the column
  components and `src/lib/llm.py` are not part of this model.

=== FILE: board_jsx.dfy ===
/** The older inline `Board` component: the board, the new-column input and
    the dragged card as component state, with its own handlers. Its cards
    carry their text in a `text` field, modelled as `Card.content`. */
module BoardJsx {
  import opened Kanban
  import KanbanProperties
  import DragAndDrop

  /** The board the inline `addCard(colId, text)` computes: there is no
      blank check at this level. */
  function AddCardUnchecked(b: Board, colId: string, text: string, freshId: string): (r: Board)
    ensures |r| == |b|
    ensures forall i | 0 <= i < |b| && b[i].id != colId :: r[i] == b[i]
    ensures forall i | 0 <= i < |b| && b[i].id == colId ::
      r[i].id == b[i].id && r[i].title == b[i].title &&
      r[i].cards == b[i].cards + [Card(freshId, text)]
  {
    AppendCard(b, colId, Card(freshId, text))
  }

  /** For text that is not blank the inline `addCard` computes what the other
      command sets compute; blank text is added as a card all the same. */
  lemma {:induction false} AddCardUncheckedVersusChecked(b: Board, colId: string, text: string, freshId: string)
    ensures !Blank(text) ==> Kanban.AddCard(b, colId, text, freshId) == Some(AddCardUnchecked(b, colId, text, freshId))
    ensures Blank(text) ==> Kanban.AddCard(b, colId, text, freshId).None?
    ensures colId in ColumnIds(b) ==>
      |Flatten(AddCardUnchecked(b, colId, text, freshId))| > |Flatten(b)|
  {
    if colId in ColumnIds(b) {
      var p :| 0 <= p < |b| && ColumnIds(b)[p] == colId;
      FlattenGrows(b, AddCardUnchecked(b, colId, text, freshId), p);
    }
  }

  /** On a board with unique ids, the inline `addCard` with a fresh id adds
      exactly one card, to the column with `colId`, and keeps ids unique,
      blank text included. */
  lemma {:induction false} AddCardUncheckedAppendsOnce(b: Board, p: nat, text: string, freshId: string)
    requires UniqueIds(b) && p < |b| && freshId !in CardIds(Flatten(b))
    ensures AddCardUnchecked(b, b[p].id, text, freshId) ==
      b[p := b[p].(cards := b[p].cards + [Card(freshId, text)])]
    ensures multiset(Flatten(AddCardUnchecked(b, b[p].id, text, freshId)))
         == multiset(Flatten(b)) + multiset{Card(freshId, text)}
    ensures UniqueIds(AddCardUnchecked(b, b[p].id, text, freshId))
  {
    KanbanProperties.AppendFreshCard(b, p, Card(freshId, text));
  }

  /** A board whose columns each keep or grow their card lists, one of them
      strictly, has more cards. */
  lemma {:induction false} FlattenGrows(b: Board, r: Board, p: nat)
    requires |r| == |b| && p < |b|
    requires forall i | 0 <= i < |b| :: |r[i].cards| >= |b[i].cards|
    requires |r[p].cards| > |b[p].cards|
    ensures |Flatten(r)| > |Flatten(b)|
    decreases |b|
  {
    var n := |b| - 1;
    FlattenLength(b[..n], r[..n]);
    if p < n {
      FlattenGrows(b[..n], r[..n], p);
    }
  }

  lemma {:induction false} FlattenLength(b: Board, r: Board)
    requires |r| == |b|
    requires forall i | 0 <= i < |b| :: |r[i].cards| >= |b[i].cards|
    ensures |Flatten(r)| >= |Flatten(b)|
    decreases |b|
  {
    if b != [] {
      FlattenLength(b[..|b| - 1], r[..|r| - 1]);
    }
  }

  class BoardView {
    var columns: Board
    var newColTitle: string
    var dragged: Option<DraggedCard>

    /** The seed board, an empty input and no drag in progress. */
    constructor (initial: Board)
      ensures columns == initial && newColTitle == "" && dragged.None?
    {
      columns := initial;
      newColTitle := "";
      dragged := None;
    }

    /** The input's `onChange`. */
    method SetNewColTitle(text: string)
      modifies this
      ensures newColTitle == text && columns == old(columns) && dragged == old(dragged)
    {
      newColTitle := text;
    }

    /** `addColumn()`: a blank input is ignored; otherwise a column titled
        with the untrimmed input is appended and the input cleared. */
    method AddColumn(freshId: string)
      modifies this
      ensures dragged == old(dragged)
      ensures Blank(old(newColTitle)) ==> columns == old(columns) && newColTitle == old(newColTitle)
      ensures !Blank(old(newColTitle)) ==>
        Some(columns) == Kanban.AddColumn(old(columns), old(newColTitle), freshId) &&
        newColTitle == ""
    {
      if Blank(newColTitle) {
        return;
      }
      columns := columns + [Column(freshId, newColTitle, [])];
      newColTitle := "";
    }

    /** `deleteColumn(colId)`. */
    method DeleteColumn(colId: string)
      modifies this
      ensures columns == Kanban.DeleteColumn(old(columns), colId)
      ensures newColTitle == old(newColTitle) && dragged == old(dragged)
    {
      columns := Kanban.DeleteColumn(columns, colId);
    }

    /** `renameColumn(colId, newTitle)`. */
    method RenameColumn(colId: string, newTitle: string)
      modifies this
      ensures columns == Kanban.RenameColumn(old(columns), colId, newTitle)
      ensures newColTitle == old(newColTitle) && dragged == old(dragged)
    {
      columns := Kanban.RenameColumn(columns, colId, newTitle);
    }

    /** `addCard(colId, text)`, with no blank check. */
    method AddCard(colId: string, text: string, freshId: string)
      modifies this
      ensures columns == AddCardUnchecked(old(columns), colId, text, freshId)
      ensures newColTitle == old(newColTitle) && dragged == old(dragged)
    {
      columns := AddCardUnchecked(columns, colId, text, freshId);
    }

    /** `deleteCard(colId, cardId)`. */
    method DeleteCard(colId: string, cardId: string)
      modifies this
      ensures columns == Kanban.DeleteCard(old(columns), colId, cardId)
      ensures newColTitle == old(newColTitle) && dragged == old(dragged)
    {
      columns := Kanban.DeleteCard(columns, colId, cardId);
    }

    /** `onDragStart(cardId, fromColId)`. */
    method OnDragStart(cardId: string, fromColId: string)
      modifies this
      ensures dragged == Some(DraggedCard(cardId, fromColId))
      ensures columns == old(columns) && newColTitle == old(newColTitle)
    {
      dragged := Some(DraggedCard(cardId, fromColId));
    }

    /** `onDrop(toColId)`: without a drag, or onto the origin column, nothing
        changes and the drag stays recorded; otherwise the card moves and the
        drag is cleared, even when the card was not found. */
    method OnDrop(toColId: string)
      modifies this
      ensures newColTitle == old(newColTitle)
      ensures !DragAndDrop.CardDropApplies(old(dragged), toColId) ==>
        columns == old(columns) && dragged == old(dragged)
      ensures DragAndDrop.CardDropApplies(old(dragged), toColId) ==>
        columns == DropCardColumns(old(columns), old(dragged).value, toColId) && dragged.None?
    {
      if dragged.None? {
        return;
      }
      if dragged.value.fromColId == toColId {
        return;
      }
      columns := DragAndDrop.DropCard(columns, dragged.value, toColId);
      dragged := None;
    }

    /** `isDraggedOver` for a column: a drag from another column is in
        progress. */
    predicate IsDraggedOver(colId: string)
      reads this
    {
      dragged.Some? && dragged.value.fromColId != colId
    }
  }

  /** A column is shown as dragged over exactly when a drop onto it gets past
      both guards of `onDrop`, that is, exactly when `OnDrop` moves the card. */
  lemma {:induction false} DraggedOverColumnsAreAccepted(v: BoardView, colId: string)
    ensures v.IsDraggedOver(colId) <==> DragAndDrop.CardDropApplies(v.dragged, colId)
  {
  }
}

=== FILE: kanban.dfy ===
/** The kanban board and the transformations every command set of the
    application applies to it: the server actions, the `useKanban` hook and
    the older inline `Board` component all compute their next board with
    these map/filter/append/splice expressions. */
module Kanban {
  import Seqs

  datatype Option<T> = None | Some(value: T)

  datatype Card = Card(id: string, content: string)

  datatype Column = Column(id: string, title: string, cards: seq<Card>)

  /** The card being dragged and the column it was picked up from. */
  datatype DraggedCard = DraggedCard(cardId: string, fromColId: string)

  /** Columns in display order, left to right. */
  type Board = seq<Column>

  // ---------------------------------------------------------------------
  // `String.prototype.trim` and the blank-input guards built on it

  /** The code points ECMAScript counts as WhiteSpace or LineTerminator,
      which is what `trim` strips from both ends. */
  predicate IsWhitespace(c: char)
  {
    c == '\t' || c == '\n' || c == '\U{000B}' || c == '\U{000C}' || c == '\r' ||
    c == ' ' || c == '\U{00A0}' || c == '\U{1680}' ||
    ('\U{2000}' <= c <= '\U{200A}') ||
    c == '\U{2028}' || c == '\U{2029}' || c == '\U{202F}' || c == '\U{205F}' ||
    c == '\U{3000}' || c == '\U{FEFF}'
  }

  function TrimStart(s: string): string
  {
    if s != [] && IsWhitespace(s[0]) then TrimStart(s[1..]) else s
  }

  function TrimEnd(s: string): string
  {
    if s != [] && IsWhitespace(s[|s| - 1]) then TrimEnd(s[..|s| - 1]) else s
  }

  function Trim(s: string): string
  {
    TrimEnd(TrimStart(s))
  }

  /** `!s.trim()`: the empty string is the only falsy string. */
  predicate Blank(s: string)
  {
    Trim(s) == ""
  }

  // ---------------------------------------------------------------------
  // Views of a board

  function ColumnIds(b: Board): seq<string>
  {
    Seqs.Map(b, (c: Column) => c.id)
  }

  function CardIds(cards: seq<Card>): seq<string>
  {
    Seqs.Map(cards, (c: Card) => c.id)
  }

  /** Every card of the board, column after column. */
  function Flatten(b: Board): seq<Card>
  {
    if b == [] then [] else Flatten(b[..|b| - 1]) + b[|b| - 1].cards
  }

  /** Column ids are unique, and card ids are unique across the whole board. */
  predicate UniqueIds(b: Board)
  {
    Seqs.Distinct(ColumnIds(b)) && Seqs.Distinct(CardIds(Flatten(b)))
  }

  /** `columns.findIndex(col => col.id === colId)`. */
  function IndexOf(b: Board, colId: string): (r: int)
    ensures -1 <= r < |b|
    ensures r == -1 <==> forall i | 0 <= i < |b| :: b[i].id != colId
    ensures r >= 0 ==> b[r].id == colId && forall i | 0 <= i < r :: b[i].id != colId
  {
    if b == [] then -1
    else if b[0].id == colId then 0
    else
      var k := IndexOf(b[1..], colId);
      if k == -1 then -1 else k + 1
  }

  // ---------------------------------------------------------------------
  // Column commands

  /** Append a column with the given (untrimmed) title and no cards; `None`
      is the `null` returned for a blank title. */
  function AddColumn(b: Board, title: string, freshId: string): (r: Option<Board>)
    ensures r.None? <==> Blank(title)
    ensures r.Some? ==> |r.value| == |b| + 1 && r.value[..|b|] == b
    ensures r.Some? ==> r.value[|b|] == Column(freshId, title, [])
  {
    if Blank(title) then None else Some(b + [Column(freshId, title, [])])
  }

  /** `columns.filter(col => col.id !== colId)`. */
  function DeleteColumn(b: Board, colId: string): (r: Board)
    ensures Seqs.Subsequence(r, b) && multiset(r) <= multiset(b)
    ensures forall c | c in r :: c.id != colId
    ensures forall c | c in b && c.id != colId :: multiset(r)[c] == multiset(b)[c]
  {
    Seqs.FilterSpec(b, (c: Column) => c.id != colId);
    Seqs.Filter(b, (c: Column) => c.id != colId)
  }

  function RenameColumn(b: Board, colId: string, title: string): (r: Board)
    ensures |r| == |b|
    ensures forall i | 0 <= i < |b| :: r[i].id == b[i].id && r[i].cards == b[i].cards
    ensures forall i | 0 <= i < |b| ::
      r[i].title == if b[i].id == colId then title else b[i].title
  {
    seq(|b|, i requires 0 <= i < |b| =>
      if b[i].id == colId then b[i].(title := title) else b[i])
  }

  // ---------------------------------------------------------------------
  // Card commands

  /** `{ ...col, cards: [...col.cards, card] }` on every column with `colId`. */
  function AppendCard(b: Board, colId: string, card: Card): Board
  {
    seq(|b|, i requires 0 <= i < |b| =>
      if b[i].id == colId then b[i].(cards := b[i].cards + [card]) else b[i])
  }

  /** `cards.filter(card => card.id !== cardId)`. */
  function RemoveCard(cards: seq<Card>, cardId: string): seq<Card>
  {
    Seqs.Filter(cards, (c: Card) => c.id != cardId)
  }

  /** Append a card with the given content to the column(s) with `colId`;
      `None` is the `null` returned for blank content. */
  function AddCard(b: Board, colId: string, content: string, freshId: string): (r: Option<Board>)
    ensures r.None? <==> Blank(content)
    ensures r.Some? ==> |r.value| == |b|
    ensures r.Some? ==> forall i | 0 <= i < |b| ::
      r.value[i].id == b[i].id && r.value[i].title == b[i].title
    ensures r.Some? ==> forall i | 0 <= i < |b| && b[i].id != colId :: r.value[i] == b[i]
    ensures r.Some? ==> forall i | 0 <= i < |b| && b[i].id == colId ::
      r.value[i].cards == b[i].cards + [Card(freshId, content)]
  {
    if Blank(content) then None else Some(AppendCard(b, colId, Card(freshId, content)))
  }

  /** Remove the cards with `cardId` from the column(s) with `colId`. */
  function DeleteCard(b: Board, colId: string, cardId: string): (r: Board)
    ensures |r| == |b|
    ensures forall i | 0 <= i < |b| :: r[i].id == b[i].id && r[i].title == b[i].title
    ensures forall i | 0 <= i < |b| && b[i].id != colId :: r[i] == b[i]
    ensures forall i | 0 <= i < |b| && b[i].id == colId ::
      cardId !in CardIds(r[i].cards) && Seqs.Subsequence(r[i].cards, b[i].cards)
    ensures forall i | 0 <= i < |b| && b[i].id == colId ::
      forall c | c in b[i].cards && c.id != cardId :: multiset(r[i].cards)[c] == multiset(b[i].cards)[c]
  {
    var r := seq(|b|, i requires 0 <= i < |b| =>
      if b[i].id == colId then b[i].(cards := RemoveCard(b[i].cards, cardId)) else b[i]);
    assert forall i | 0 <= i < |b| && b[i].id == colId ::
      cardId !in CardIds(r[i].cards) && Seqs.Subsequence(r[i].cards, b[i].cards) &&
      forall c | c in b[i].cards && c.id != cardId :: multiset(r[i].cards)[c] == multiset(b[i].cards)[c] by {
      forall i | 0 <= i < |b| && b[i].id == colId
        ensures cardId !in CardIds(r[i].cards) && Seqs.Subsequence(r[i].cards, b[i].cards)
        ensures forall c | c in b[i].cards && c.id != cardId :: multiset(r[i].cards)[c] == multiset(b[i].cards)[c]
      {
        Seqs.FilterSpec(b[i].cards, (c: Card) => c.id != cardId);
        var ids := CardIds(r[i].cards);
        forall k | 0 <= k < |ids| ensures ids[k] != cardId {
          assert r[i].cards[k] in r[i].cards;
        }
      }
    }
    r
  }

  // ---------------------------------------------------------------------
  // Moving a card

  /** The last card with `cardId` in `cards`. */
  function LastCardWithId(cards: seq<Card>, cardId: string): (r: Option<Card>)
    ensures r.None? <==> cardId !in CardIds(cards)
    ensures r.Some? ==> r.value in cards && r.value.id == cardId
    ensures r.Some? ==> exists k | 0 <= k < |cards| ::
      cards[k] == r.value && forall j | k < j < |cards| :: cards[j].id != cardId
  {
    if cards == [] then None
    else if cards[|cards| - 1].id == cardId then
      assert CardIds(cards)[|cards| - 1] == cardId;
      Some(cards[|cards| - 1])
    else
      var init := cards[..|cards| - 1];
      var r := LastCardWithId(init, cardId);
      assert CardIds(cards) == CardIds(init) + [cards[|cards| - 1].id];
      assert r.Some? ==> exists k | 0 <= k < |cards| ::
        cards[k] == r.value && forall j | k < j < |cards| :: cards[j].id != cardId by {
        if r.Some? {
          var k :| 0 <= k < |init| && init[k] == r.value && forall j | k < j < |init| :: init[j].id != cardId;
          assert cards[k] == init[k];
          forall j | k < j < |cards| ensures cards[j].id != cardId {
            if j < |init| {
              assert cards[j] == init[j];
            }
          }
        }
      }
      r
  }

  /** The card the server's `moveCard` captures while filtering: every match
      in every column with `fromColId` overwrites the previous one, so it is
      the last match. */
  function LastMatch(b: Board, fromColId: string, cardId: string): (r: Option<Card>)
    ensures r.None? <==>
      forall i | 0 <= i < |b| && b[i].id == fromColId :: cardId !in CardIds(b[i].cards)
    ensures r.Some? ==> r.value.id == cardId
  {
    if b == [] then None
    else
      var last := b[|b| - 1];
      var m := if last.id == fromColId then LastCardWithId(last.cards, cardId) else None;
      if m.Some? then m else LastMatch(b[..|b| - 1], fromColId, cardId)
  }

  /** The server's `moveCard`: take the card out of `fromColId` and append it
      to `toColId`; the board is returned as it was when no such card is
      there. */
  function MoveCard(b: Board, cardId: string, fromColId: string, toColId: string): (r: Board)
    ensures (forall i | 0 <= i < |b| && b[i].id == fromColId :: cardId !in CardIds(b[i].cards))
      ==> r == b
    ensures |r| == |b|
    ensures forall i | 0 <= i < |b| :: r[i].id == b[i].id && r[i].title == b[i].title
  {
    match LastMatch(b, fromColId, cardId)
    case None => b
    case Some(card) => AppendCard(DeleteCard(b, fromColId, cardId), toColId, card)
  }

  /** `cards.find(card => card.id === cardId)`: the first match. */
  function FindCard(cards: seq<Card>, cardId: string): (r: Option<Card>)
    ensures r.None? <==> cardId !in CardIds(cards)
    ensures r.Some? ==> r.value in cards && r.value.id == cardId
    ensures r.Some? ==> exists k | 0 <= k < |cards| ::
      cards[k] == r.value && forall j | 0 <= j < k :: cards[j].id != cardId
  {
    if cards == [] then None
    else if cards[0].id == cardId then
      assert CardIds(cards)[0] == cardId;
      Some(cards[0])
    else
      var rest := cards[1..];
      var r := FindCard(rest, cardId);
      assert CardIds(cards) == [cards[0].id] + CardIds(rest);
      assert r.Some? ==> exists k | 0 <= k < |cards| ::
        cards[k] == r.value && forall j | 0 <= j < k :: cards[j].id != cardId by {
        if r.Some? {
          var k :| 0 <= k < |rest| && rest[k] == r.value && forall j | 0 <= j < k :: rest[j].id != cardId;
          assert cards[k + 1] == rest[k];
          forall j | 0 <= j < k + 1 ensures cards[j].id != cardId {
            if j > 0 {
              assert cards[j] == rest[j - 1];
            }
          }
        }
      }
      r
  }

  /** The card the drop handlers capture while mapping: every column with
      `fromColId` overwrites it with the result of its `find`, so it is the
      first match in the last such column. */
  function FindInLastColumn(b: Board, fromColId: string, cardId: string): (r: Option<Card>)
    ensures (forall i | 0 <= i < |b| && b[i].id == fromColId :: cardId !in CardIds(b[i].cards))
      ==> r.None?
    ensures r.Some? ==> r.value.id == cardId
  {
    if b == [] then None
    else if b[|b| - 1].id == fromColId then FindCard(b[|b| - 1].cards, cardId)
    else FindInLastColumn(b[..|b| - 1], fromColId, cardId)
  }

  /** The board a card drop computes: the first `map` strips the card from
      its origin, the second appends the captured card to `toColId` if one
      was found. */
  function DropCardColumns(b: Board, dragged: DraggedCard, toColId: string): (r: Board)
    ensures |r| == |b|
    ensures forall i | 0 <= i < |b| :: r[i].id == b[i].id && r[i].title == b[i].title
    ensures forall i | 0 <= i < |b| && b[i].id != dragged.fromColId && b[i].id != toColId ::
      r[i] == b[i]
    ensures forall i | 0 <= i < |b| && b[i].id == dragged.fromColId && b[i].id != toColId ::
      dragged.cardId !in CardIds(r[i].cards) && Seqs.Subsequence(r[i].cards, b[i].cards) &&
      forall c | c in b[i].cards && c.id != dragged.cardId ::
        multiset(r[i].cards)[c] == multiset(b[i].cards)[c]
    ensures FindInLastColumn(b, dragged.fromColId, dragged.cardId).None? ==>
      forall i | 0 <= i < |b| && b[i].id != dragged.fromColId :: r[i] == b[i]
    ensures FindInLastColumn(b, dragged.fromColId, dragged.cardId).Some? ==>
      forall i | 0 <= i < |b| && b[i].id == toColId && b[i].id != dragged.fromColId ::
        r[i].cards == b[i].cards + [FindInLastColumn(b, dragged.fromColId, dragged.cardId).value]
  {
    var updated := DeleteCard(b, dragged.fromColId, dragged.cardId);
    match FindInLastColumn(b, dragged.fromColId, dragged.cardId)
    case None => updated
    case Some(card) => AppendCard(updated, toColId, card)
  }

  // ---------------------------------------------------------------------
  // Reordering columns

  /** Move the dragged column to the index the target column had before the
      dragged one was taken out; the board is returned as it was when either
      id is unknown. */
  function ReorderColumns(b: Board, draggedColId: string, targetColId: string): (r: Board)
    ensures |r| == |b| && multiset(r) == multiset(b)
    ensures IndexOf(b, draggedColId) == -1 || IndexOf(b, targetColId) == -1 ==> r == b
    ensures IndexOf(b, draggedColId) >= 0 && IndexOf(b, targetColId) >= 0 ==>
      r[IndexOf(b, targetColId)] == b[IndexOf(b, draggedColId)] &&
      Seqs.RemoveAt(r, IndexOf(b, targetColId)) == Seqs.RemoveAt(b, IndexOf(b, draggedColId))
  {
    var from, to := IndexOf(b, draggedColId), IndexOf(b, targetColId);
    if from == -1 || to == -1 then b else Seqs.SpliceMove(b, from, to)
  }

  // ---------------------------------------------------------------------
  // The seed board

  /** The three default columns, with one sample card in the first; the ids
      are whatever the id generator produced. */
  function Seed(todoId: string, progressId: string, doneId: string, sampleId: string): Board
  {
    [ Column(todoId, "To Do", [Card(sampleId, "Sample Task")]),
      Column(progressId, "In Progress", []),
      Column(doneId, "Done", []) ]
  }
}

=== FILE: kanban_properties.dfy ===
/** What the board transformations guarantee: each command's effect stated
    column by column, card conservation for moves and reorders, and the
    board invariant that column ids and card ids stay unique as long as the
    id generator hands out fresh ids. */
module KanbanProperties {
  import Seqs
  import opened Kanban

  // ---------------------------------------------------------------------
  // Blank input

  lemma {:induction false} TrimStartEmpty(s: string)
    ensures TrimStart(s) == "" <==> forall i | 0 <= i < |s| :: IsWhitespace(s[i])
    ensures TrimStart(s) != "" ==> !IsWhitespace(TrimStart(s)[0])
    decreases |s|
  {
    if s != [] && IsWhitespace(s[0]) {
      TrimStartEmpty(s[1..]);
      assert forall i | 1 <= i < |s| :: s[i] == s[1..][i - 1];
    }
  }

  lemma {:induction false} TrimEndEmpty(s: string)
    ensures TrimEnd(s) == "" <==> forall i | 0 <= i < |s| :: IsWhitespace(s[i])
    decreases |s|
  {
    if s != [] && IsWhitespace(s[|s| - 1]) {
      TrimEndEmpty(s[..|s| - 1]);
    }
  }

  /** `TrimStart` drops a whitespace prefix and nothing else. */
  lemma {:induction false} TrimStartDrops(s: string) returns (i: nat)
    ensures i <= |s| && TrimStart(s) == s[i..]
    ensures forall k | 0 <= k < i :: IsWhitespace(s[k])
    decreases |s|
  {
    if s != [] && IsWhitespace(s[0]) {
      var i' := TrimStartDrops(s[1..]);
      i := i' + 1;
      assert s[1..][i'..] == s[i..];
      forall k | 0 <= k < i ensures IsWhitespace(s[k]) {
        if k > 0 {
          assert s[k] == s[1..][k - 1];
        }
      }
    } else {
      i := 0;
    }
  }

  /** `TrimEnd` drops a whitespace suffix and nothing else, and what it
      keeps does not end in whitespace. */
  lemma {:induction false} TrimEndDrops(s: string) returns (j: nat)
    ensures j <= |s| && TrimEnd(s) == s[..j]
    ensures forall k | j <= k < |s| :: IsWhitespace(s[k])
    ensures TrimEnd(s) != "" ==> !IsWhitespace(TrimEnd(s)[|TrimEnd(s)| - 1])
    decreases |s|
  {
    if s != [] && IsWhitespace(s[|s| - 1]) {
      var init := s[..|s| - 1];
      j := TrimEndDrops(init);
      assert init[..j] == s[..j];
      forall k | j <= k < |s| ensures IsWhitespace(s[k]) {
        if k < |init| {
          assert s[k] == init[k];
        }
      }
    } else {
      j := |s|;
    }
  }

  /** `s.trim()` is the slice of `s` left once the leading and the trailing
      whitespace are cut off: it starts and ends with a non-whitespace
      character unless it is empty. */
  lemma {:induction false} TrimStripsBothEnds(s: string)
    ensures exists i, j | 0 <= i <= j <= |s| ::
      Trim(s) == s[i..j] &&
      (forall k | 0 <= k < i :: IsWhitespace(s[k])) &&
      (forall k | j <= k < |s| :: IsWhitespace(s[k]))
    ensures Trim(s) != "" ==> !IsWhitespace(Trim(s)[0]) && !IsWhitespace(Trim(s)[|Trim(s)| - 1])
  {
    var i := TrimStartDrops(s);
    var t := s[i..];
    var j := TrimEndDrops(t);
    TrimStartEmpty(s);
    assert Trim(s) == s[i..i + j];
    forall k | i + j <= k < |s| ensures IsWhitespace(s[k]) {
      assert s[k] == t[k - i];
    }
    if Trim(s) != "" {
      assert Trim(s)[0] == TrimStart(s)[0];
    }
  }

  /** `!s.trim()` holds exactly for the strings made only of whitespace,
      the empty string included. */
  lemma {:induction false} BlankIffAllWhitespace(s: string)
    ensures Blank(s) <==> forall i | 0 <= i < |s| :: IsWhitespace(s[i])
  {
    TrimStartEmpty(s);
    TrimEndEmpty(TrimStart(s));
  }

  // ---------------------------------------------------------------------
  // Flattening a board into its cards

  lemma {:induction false} FlattenAppend(a: Board, b: Board)
    ensures Flatten(a + b) == Flatten(a) + Flatten(b)
    decreases |b|
  {
    if b == [] {
      assert a + b == a;
    } else {
      assert (a + b)[..|a + b| - 1] == a + b[..|b| - 1];
      FlattenAppend(a, b[..|b| - 1]);
    }
  }

  lemma {:induction false} FlattenSplit(b: Board, p: nat)
    requires p < |b|
    ensures Flatten(b) == Flatten(b[..p]) + b[p].cards + Flatten(b[p + 1..])
  {
    var tail := [b[p]] + b[p + 1..];
    assert Flatten(tail) == b[p].cards + Flatten(b[p + 1..]) by {
      FlattenAppend([b[p]], b[p + 1..]);
      assert [b[p]][..0] == [];
    }
    assert Flatten(b) == Flatten(b[..p]) + Flatten(tail) by {
      assert b == b[..p] + tail;
      FlattenAppend(b[..p], tail);
    }
  }

  /** Replacing one column's cards leaves the cards of the other columns,
      in place, around the new ones. */
  lemma {:induction false} FlattenUpdate(b: Board, p: nat, cards: seq<Card>)
    requires p < |b|
    ensures Flatten(b[p := b[p].(cards := cards)]) == Flatten(b[..p]) + cards + Flatten(b[p + 1..])
  {
    var b' := b[p := b[p].(cards := cards)];
    FlattenSplit(b', p);
    assert b'[..p] == b[..p] && b'[p + 1..] == b[p + 1..];
  }

  /** Appending a card to one column adds exactly that card to the board. */
  lemma {:induction false} FlattenAppendCard(b: Board, p: nat, card: Card)
    requires p < |b|
    ensures multiset(Flatten(b[p := b[p].(cards := b[p].cards + [card])]))
         == multiset(Flatten(b)) + multiset{card}
  {
    FlattenSplit(b, p);
    FlattenUpdate(b, p, b[p].cards + [card]);
  }

  /** Removing the card at position `k` of one column removes exactly that
      card from the board. */
  lemma {:induction false} FlattenRemoveCard(b: Board, p: nat, k: nat)
    requires p < |b| && k < |b[p].cards|
    ensures multiset(Flatten(b[p := b[p].(cards := Seqs.RemoveAt(b[p].cards, k))]))
          + multiset{b[p].cards[k]} == multiset(Flatten(b))
  {
    var cards := b[p].cards;
    var pre, post := Flatten(b[..p]), Flatten(b[p + 1..]);
    assert Flatten(b) == pre + cards + post by {
      FlattenSplit(b, p);
    }
    assert Flatten(b[p := b[p].(cards := Seqs.RemoveAt(cards, k))]) == pre + Seqs.RemoveAt(cards, k) + post by {
      FlattenUpdate(b, p, Seqs.RemoveAt(cards, k));
    }
    Seqs.MultisetRemoveAt(cards, k);
  }

  lemma {:induction false} FlattenMonotone(a: Board, b: Board)
    requires multiset(a) <= multiset(b)
    ensures multiset(Flatten(a)) <= multiset(Flatten(b))
    decreases |a|
  {
    if a != [] {
      var a', x := a[..|a| - 1], a[|a| - 1];
      assert a == a' + [x];
      assert multiset(a) == multiset(a') + multiset{x};
      assert x in multiset(b);
      var j :| 0 <= j < |b| && b[j] == x;
      var b' := Seqs.RemoveAt(b, j);
      Seqs.MultisetRemoveAt(b, j);
      forall y ensures multiset(a')[y] <= multiset(b')[y] {
        assert multiset(a)[y] <= multiset(b)[y];
      }
      FlattenMonotone(a', b');
      FlattenRemoveAt(b, j);
      assert Flatten(a) == Flatten(a') + x.cards;
    }
  }

  /** Removing the column at `j` removes exactly its cards. */
  lemma {:induction false} FlattenRemoveAt(b: Board, j: nat)
    requires j < |b|
    ensures multiset(Flatten(b)) == multiset(Flatten(Seqs.RemoveAt(b, j))) + multiset(b[j].cards)
  {
    FlattenSplit(b, j);
    FlattenAppend(b[..j], b[j + 1..]);
  }

  /** Card-level multiset facts carry over to card ids. */
  lemma {:induction false} CardIdsMonotone(a: seq<Card>, b: seq<Card>)
    requires multiset(a) <= multiset(b)
    ensures multiset(CardIds(a)) <= multiset(CardIds(b))
  {
    Seqs.MapMonotone(a, b, (c: Card) => c.id);
  }

  lemma {:induction false} ColumnIdsMonotone(a: Board, b: Board)
    requires multiset(a) <= multiset(b)
    ensures multiset(ColumnIds(a)) <= multiset(ColumnIds(b))
  {
    Seqs.MapMonotone(a, b, (c: Column) => c.id);
  }

  // ---------------------------------------------------------------------
  // Locating a column or a card on a board with unique ids

  lemma {:induction false} UniqueColumnAt(b: Board, p: nat)
    requires Seqs.Distinct(ColumnIds(b)) && p < |b|
    ensures forall i | 0 <= i < |b| && i != p :: b[i].id != b[p].id
  {
    forall i | 0 <= i < |b| && i != p ensures b[i].id != b[p].id {
      Seqs.DistinctAt(ColumnIds(b), i, p);
    }
  }

  lemma {:induction false} UniqueCardAt(cards: seq<Card>, k: nat)
    requires Seqs.Distinct(CardIds(cards)) && k < |cards|
    ensures forall j | 0 <= j < |cards| && j != k :: cards[j].id != cards[k].id
  {
    forall j | 0 <= j < |cards| && j != k ensures cards[j].id != cards[k].id {
      Seqs.DistinctAt(CardIds(cards), j, k);
    }
  }

  /** On a board with unique card ids, every column's card ids are unique. */
  lemma {:induction false} ColumnCardsDistinct(b: Board, p: nat)
    requires Seqs.Distinct(CardIds(Flatten(b))) && p < |b|
    ensures Seqs.Distinct(CardIds(b[p].cards))
  {
    FlattenSplit(b, p);
    assert multiset(b[p].cards) <= multiset(Flatten(b));
    CardIdsMonotone(b[p].cards, Flatten(b));
    Seqs.DistinctSub(CardIds(b[p].cards), CardIds(Flatten(b)));
  }

  /** The only card with a given id in a column with unique card ids. */
  lemma {:induction false} LastAndFirstMatchAt(cards: seq<Card>, k: nat)
    requires Seqs.Distinct(CardIds(cards)) && k < |cards|
    ensures LastCardWithId(cards, cards[k].id) == Some(cards[k])
    ensures FindCard(cards, cards[k].id) == Some(cards[k])
  {
    UniqueCardAt(cards, k);
    assert CardIds(cards)[k] == cards[k].id;
  }

  lemma {:induction false} LastMatchAt(b: Board, p: nat, cardId: string)
    requires p < |b| && forall i | 0 <= i < |b| && i != p :: b[i].id != b[p].id
    ensures LastMatch(b, b[p].id, cardId) == LastCardWithId(b[p].cards, cardId)
    decreases |b|
  {
    if p < |b| - 1 {
      LastMatchAt(b[..|b| - 1], p, cardId);
    }
  }

  lemma {:induction false} FindInLastColumnAt(b: Board, p: nat, cardId: string)
    requires p < |b| && forall i | 0 <= i < |b| && i != p :: b[i].id != b[p].id
    ensures FindInLastColumn(b, b[p].id, cardId) == FindCard(b[p].cards, cardId)
    decreases |b|
  {
    if p < |b| - 1 {
      FindInLastColumnAt(b[..|b| - 1], p, cardId);
    }
  }

  /** Whatever the ids, the card the server captures is the last card with
      `cardId` in the last origin column that holds one. */
  lemma {:induction false} LastMatchIsLastOriginMatch(b: Board, fromColId: string, cardId: string)
    ensures var r := LastMatch(b, fromColId, cardId);
      r.Some? ==> exists p | 0 <= p < |b| ::
        b[p].id == fromColId && r == LastCardWithId(b[p].cards, cardId) &&
        forall q | p < q < |b| && b[q].id == fromColId :: cardId !in CardIds(b[q].cards)
    decreases |b|
  {
    var r := LastMatch(b, fromColId, cardId);
    if b != [] && r.Some? {
      var init, last := b[..|b| - 1], b[|b| - 1];
      assert b == init + [last];
      if last.id == fromColId && LastCardWithId(last.cards, cardId).Some? {
        assert r == LastCardWithId(b[|b| - 1].cards, cardId);
      } else {
        assert r == LastMatch(init, fromColId, cardId);
        LastMatchIsLastOriginMatch(init, fromColId, cardId);
        LastMatchStep(init, last, fromColId, cardId, r);
      }
    }
  }

  lemma {:induction false} LastMatchStep(init: Board, last: Column, fromColId: string, cardId: string, r: Option<Card>)
    requires last.id == fromColId ==> LastCardWithId(last.cards, cardId).None?
    requires r.Some? ==> exists p | 0 <= p < |init| ::
      init[p].id == fromColId && r == LastCardWithId(init[p].cards, cardId) &&
      forall q | p < q < |init| && init[q].id == fromColId :: cardId !in CardIds(init[q].cards)
    ensures var b := init + [last];
      r.Some? ==> exists p | 0 <= p < |b| ::
        b[p].id == fromColId && r == LastCardWithId(b[p].cards, cardId) &&
        forall q | p < q < |b| && b[q].id == fromColId :: cardId !in CardIds(b[q].cards)
  {
    var b := init + [last];
    if r.Some? {
      var p :| 0 <= p < |init| && init[p].id == fromColId && r == LastCardWithId(init[p].cards, cardId) &&
        forall q | p < q < |init| && init[q].id == fromColId :: cardId !in CardIds(init[q].cards);
      assert b[p] == init[p];
      forall q | p < q < |b| && b[q].id == fromColId ensures cardId !in CardIds(b[q].cards) {
        if q < |init| {
          assert b[q] == init[q];
        } else {
          assert b[q] == last;
        }
      }
    }
  }

  /** Whatever the ids, the card the drop handlers capture is the first card
      with `cardId` in the last column whose id is `fromColId`. */
  lemma {:induction false} FindInLastColumnIsLastOriginFirst(b: Board, fromColId: string, cardId: string)
    ensures var r := FindInLastColumn(b, fromColId, cardId);
      r.Some? ==> exists p | 0 <= p < |b| ::
        b[p].id == fromColId && r == FindCard(b[p].cards, cardId) &&
        forall q | p < q < |b| :: b[q].id != fromColId
    decreases |b|
  {
    var r := FindInLastColumn(b, fromColId, cardId);
    if b != [] && r.Some? {
      var init, last := b[..|b| - 1], b[|b| - 1];
      assert b == init + [last];
      if last.id == fromColId {
        assert r == FindCard(b[|b| - 1].cards, cardId);
      } else {
        assert r == FindInLastColumn(init, fromColId, cardId);
        FindInLastColumnIsLastOriginFirst(init, fromColId, cardId);
        FindInLastColumnStep(init, last, fromColId, cardId, r);
      }
    }
  }

  /** The card a drop records is decided by the last column with the
      origin id alone: it is that column's first match, so it is `None` when
      that column lacks the card even if an earlier origin column holds it. */
  lemma {:induction false} FindInLastColumnIsLastOrigin(b: Board, fromColId: string, cardId: string)
    ensures forall p | 0 <= p < |b| && b[p].id == fromColId && (forall q | p < q < |b| :: b[q].id != fromColId) ::
      FindInLastColumn(b, fromColId, cardId) == FindCard(b[p].cards, cardId)
    decreases |b|
  {
    if b != [] {
      var init, last := b[..|b| - 1], b[|b| - 1];
      assert b == init + [last];
      if last.id == fromColId {
        forall p | 0 <= p < |b| && b[p].id == fromColId && (forall q | p < q < |b| :: b[q].id != fromColId)
          ensures FindInLastColumn(b, fromColId, cardId) == FindCard(b[p].cards, cardId)
        {
          assert p == |b| - 1;
        }
      } else {
        FindInLastColumnIsLastOrigin(init, fromColId, cardId);
        forall p | 0 <= p < |b| && b[p].id == fromColId && (forall q | p < q < |b| :: b[q].id != fromColId)
          ensures FindInLastColumn(b, fromColId, cardId) == FindCard(b[p].cards, cardId)
        {
          assert p < |init| && init[p] == b[p];
          assert forall q | p < q < |init| :: init[q].id != fromColId by {
            forall q | p < q < |init| ensures init[q].id != fromColId {
              assert init[q] == b[q];
            }
          }
        }
      }
    }
  }

  /** Without an origin column a drop records nothing. */
  lemma {:induction false} FindInLastColumnNoOrigin(b: Board, fromColId: string, cardId: string)
    requires forall p | 0 <= p < |b| :: b[p].id != fromColId
    ensures FindInLastColumn(b, fromColId, cardId).None?
    decreases |b|
  {
    if b != [] {
      var init := b[..|b| - 1];
      assert forall p | 0 <= p < |init| :: init[p].id != fromColId by {
        forall p | 0 <= p < |init| ensures init[p].id != fromColId {
          assert init[p] == b[p];
        }
      }
      FindInLastColumnNoOrigin(init, fromColId, cardId);
    }
  }

  lemma {:induction false} FindInLastColumnStep(init: Board, last: Column, fromColId: string, cardId: string, r: Option<Card>)
    requires last.id != fromColId
    requires r.Some? ==> exists p | 0 <= p < |init| ::
      init[p].id == fromColId && r == FindCard(init[p].cards, cardId) &&
      forall q | p < q < |init| :: init[q].id != fromColId
    ensures var b := init + [last];
      r.Some? ==> exists p | 0 <= p < |b| ::
        b[p].id == fromColId && r == FindCard(b[p].cards, cardId) &&
        forall q | p < q < |b| :: b[q].id != fromColId
  {
    var b := init + [last];
    if r.Some? {
      var p :| 0 <= p < |init| && init[p].id == fromColId && r == FindCard(init[p].cards, cardId) &&
        forall q | p < q < |init| :: init[q].id != fromColId;
      assert b[p] == init[p];
      forall q | p < q < |b| ensures b[q].id != fromColId {
        if q < |init| {
          assert b[q] == init[q];
        } else {
          assert b[q] == last;
        }
      }
    }
  }

  // ---------------------------------------------------------------------
  // Column commands

  /** A new column goes last, after the old ones in their old order; with a
      fresh id the ids stay unique and no card is added or lost. */
  lemma {:induction false} AddColumnKeepsUnique(b: Board, title: string, freshId: string)
    requires UniqueIds(b) && freshId !in ColumnIds(b) && !Blank(title)
    ensures ColumnIds(AddColumn(b, title, freshId).value) == ColumnIds(b) + [freshId]
    ensures Flatten(AddColumn(b, title, freshId).value) == Flatten(b)
    ensures UniqueIds(AddColumn(b, title, freshId).value)
  {
    var col := Column(freshId, title, []);
    var r := AddColumn(b, title, freshId).value;
    assert r == b + [col];
    AppendColumn(b, col);
    assert Seqs.Distinct(ColumnIds(r)) by {
      Seqs.DistinctAppend(ColumnIds(b), freshId);
    }
  }

  /** A column appended to a board adds its id last and its cards last. */
  lemma {:induction false} AppendColumn(b: Board, col: Column)
    ensures ColumnIds(b + [col]) == ColumnIds(b) + [col.id]
    ensures Flatten(b + [col]) == Flatten(b) + col.cards
  {
    Seqs.MapAppend(b, [col], (c: Column) => c.id);
    assert (b + [col])[..|b|] == b;
  }


  /** The columns with `colId` go; every other column stays, in order, as
      often as before; an unknown id leaves the board as it was. */
  lemma {:induction false} DeleteColumnKeepsOthers(b: Board, colId: string)
    ensures forall i | 0 <= i < |b| && b[i].id != colId :: b[i] in DeleteColumn(b, colId)
    ensures colId !in ColumnIds(b) ==> DeleteColumn(b, colId) == b
  {
    forall i | 0 <= i < |b| && b[i].id != colId ensures b[i] in DeleteColumn(b, colId) {
      assert b[i] in b;
    }
    if colId !in ColumnIds(b) {
      forall i | 0 <= i < |b| ensures b[i].id != colId {
        assert ColumnIds(b)[i] == b[i].id;
      }
      Seqs.FilterKeepsAll(b, (c: Column) => c.id != colId);
    }
  }

  lemma {:induction false} DeleteColumnKeepsUnique(b: Board, colId: string)
    requires UniqueIds(b)
    ensures UniqueIds(DeleteColumn(b, colId))
  {
    var r := DeleteColumn(b, colId);
    ColumnIdsMonotone(r, b);
    Seqs.DistinctSub(ColumnIds(r), ColumnIds(b));
    FlattenMonotone(r, b);
    CardIdsMonotone(Flatten(r), Flatten(b));
    Seqs.DistinctSub(CardIds(Flatten(r)), CardIds(Flatten(b)));
  }

  /** Renaming touches titles only: ids, their order and every card stay. */
  lemma {:induction false} RenameColumnKeepsUnique(b: Board, colId: string, title: string)
    ensures ColumnIds(RenameColumn(b, colId, title)) == ColumnIds(b)
    ensures Flatten(RenameColumn(b, colId, title)) == Flatten(b)
    ensures UniqueIds(RenameColumn(b, colId, title)) <==> UniqueIds(b)
  {
    RenamedFlatten(b, colId, title);
  }

  lemma {:induction false} RenamedFlatten(b: Board, colId: string, title: string)
    ensures Flatten(RenameColumn(b, colId, title)) == Flatten(b)
    decreases |b|
  {
    if b != [] {
      var r := RenameColumn(b, colId, title);
      assert r[..|r| - 1] == RenameColumn(b[..|b| - 1], colId, title);
      RenamedFlatten(b[..|b| - 1], colId, title);
    }
  }

  // ---------------------------------------------------------------------
  // Card commands

  /** With unique ids and a fresh card id, the new card is appended to the
      one column with `colId` and to no other, and it is the only card the
      board gains. */
  lemma {:induction false} AddCardAppendsOnce(b: Board, p: nat, content: string, freshId: string)
    requires UniqueIds(b) && p < |b|
    requires !Blank(content) && freshId !in CardIds(Flatten(b))
    ensures AddCard(b, b[p].id, content, freshId) ==
      Some(b[p := b[p].(cards := b[p].cards + [Card(freshId, content)])])
    ensures multiset(Flatten(AddCard(b, b[p].id, content, freshId).value))
         == multiset(Flatten(b)) + multiset{Card(freshId, content)}
    ensures UniqueIds(AddCard(b, b[p].id, content, freshId).value)
  {
    AppendFreshCard(b, p, Card(freshId, content));
  }

  /** Appending a card whose id is not yet taken to one column: that column
      alone grows by the card, which is the only card the board gains, and
      ids stay unique. */
  lemma {:induction false} AppendFreshCard(b: Board, p: nat, card: Card)
    requires UniqueIds(b) && p < |b| && card.id !in CardIds(Flatten(b))
    ensures AppendCard(b, b[p].id, card) == b[p := b[p].(cards := b[p].cards + [card])]
    ensures multiset(Flatten(AppendCard(b, b[p].id, card))) == multiset(Flatten(b)) + multiset{card}
    ensures UniqueIds(AppendCard(b, b[p].id, card))
  {
    var r := b[p := b[p].(cards := b[p].cards + [card])];
    assert AppendCard(b, b[p].id, card) == r by {
      UniqueColumnAt(b, p);
      AppendCardAt(b, p, card);
    }
    assert multiset(Flatten(r)) == multiset(Flatten(b) + [card]) by {
      FlattenAppendCard(b, p, card);
    }
    assert ColumnIds(r) == ColumnIds(b) by {
      SameColumnIds(r, b);
    }
    assert Seqs.Distinct(CardIds(Flatten(r))) by {
      FreshCardKeepsDistinct(Flatten(b), card);
      CardIdsDistinctSub(Flatten(r), Flatten(b) + [card]);
    }
  }

  /** A card whose id is not yet taken keeps card ids distinct. */
  lemma {:induction false} FreshCardKeepsDistinct(cards: seq<Card>, card: Card)
    requires Seqs.Distinct(CardIds(cards)) && card.id !in CardIds(cards)
    ensures Seqs.Distinct(CardIds(cards + [card]))
  {
    Seqs.MapAppend(cards, [card], (c: Card) => c.id);
    Seqs.DistinctAppend(CardIds(cards), card.id);
  }

  /** Adding a card to an unknown column changes nothing. */
  lemma {:induction false} AddCardUnknownColumn(b: Board, colId: string, content: string, freshId: string)
    requires colId !in ColumnIds(b) && !Blank(content)
    ensures AddCard(b, colId, content, freshId) == Some(b)
  {
    forall i | 0 <= i < |b| ensures b[i].id != colId {
      assert ColumnIds(b)[i] == b[i].id;
    }
    assert AddCard(b, colId, content, freshId).value == b;
  }

  /** With unique ids, deleting a card that is there removes exactly that
      card from exactly that column. */
  lemma {:induction false} DeleteCardRemovesOne(b: Board, p: nat, k: nat)
    requires UniqueIds(b) && p < |b| && k < |b[p].cards|
    ensures DeleteCard(b, b[p].id, b[p].cards[k].id) ==
      b[p := b[p].(cards := Seqs.RemoveAt(b[p].cards, k))]
    ensures multiset(Flatten(DeleteCard(b, b[p].id, b[p].cards[k].id))) + multiset{b[p].cards[k]}
         == multiset(Flatten(b))
  {
    var cards := b[p].cards;
    var id := cards[k].id;
    var r := b[p := b[p].(cards := Seqs.RemoveAt(cards, k))];
    assert RemoveCard(cards, id) == Seqs.RemoveAt(cards, k) by {
      ColumnCardsDistinct(b, p);
      UniqueCardAt(cards, k);
      Seqs.FilterRejectsOne(cards, (c: Card) => c.id != id, k);
    }
    var d := DeleteCard(b, b[p].id, id);
    assert d == r by {
      UniqueColumnAt(b, p);
      forall i | 0 <= i < |b| ensures d[i] == r[i] {
      }
    }
    FlattenRemoveCard(b, p, k);
  }

  /** Deleting a card that is not in the column changes nothing. */
  lemma {:induction false} DeleteCardAbsent(b: Board, colId: string, cardId: string)
    requires forall i | 0 <= i < |b| && b[i].id == colId :: cardId !in CardIds(b[i].cards)
    ensures DeleteCard(b, colId, cardId) == b
  {
    forall i | 0 <= i < |b| && b[i].id == colId ensures RemoveCard(b[i].cards, cardId) == b[i].cards {
      var cards := b[i].cards;
      forall j | 0 <= j < |cards| ensures cards[j].id != cardId {
        assert CardIds(cards)[j] == cards[j].id;
      }
      Seqs.FilterKeepsAll(cards, (c: Card) => c.id != cardId);
    }
  }

  lemma {:induction false} DeleteCardKeepsUnique(b: Board, colId: string, cardId: string)
    requires UniqueIds(b)
    ensures UniqueIds(DeleteCard(b, colId, cardId))
  {
    var r := DeleteCard(b, colId, cardId);
    SameColumnIds(r, b);
    var p := IndexOf(b, colId);
    if p >= 0 {
      var cards := b[p].cards;
      assert r == b[p := b[p].(cards := RemoveCard(cards, cardId))] by {
        UniqueColumnAt(b, p);
      }
      assert multiset(Flatten(r)) <= multiset(Flatten(b)) by {
        Seqs.FilterSpec(cards, (c: Card) => c.id != cardId);
        FlattenSplit(b, p);
        FlattenUpdate(b, p, RemoveCard(cards, cardId));
      }
      ConservedCardsKeepUnique(b, r);
    } else {
      assert r == b;
    }
  }

  // ---------------------------------------------------------------------
  // Moving a card (the server's moveCard)

  /** Stripping a card from a board one column longer strips it from the
      last column on its own. */
  lemma {:induction false} DeleteCardSnoc(b: Board, c: Column, colId: string, cardId: string)
    ensures DeleteCard(b + [c], colId, cardId) ==
      DeleteCard(b, colId, cardId) + [if c.id == colId then c.(cards := RemoveCard(c.cards, cardId)) else c]
  {
    var l := DeleteCard(b + [c], colId, cardId);
    var r := DeleteCard(b, colId, cardId) + [if c.id == colId then c.(cards := RemoveCard(c.cards, cardId)) else c];
    forall i | 0 <= i < |l| ensures l[i] == r[i] {
      assert (b + [c])[i] == if i < |b| then b[i] else c;
    }
    assert l == r;
  }

  /** The drop handlers' capture on a board one column longer: the last
      column, if it is an origin column, decides. */
  lemma {:induction false} FindInLastColumnSnoc(b: Board, c: Column, fromColId: string, cardId: string)
    ensures FindInLastColumn(b + [c], fromColId, cardId) ==
      if c.id == fromColId then FindCard(c.cards, cardId) else FindInLastColumn(b, fromColId, cardId)
  {
    assert (b + [c])[..|b|] == b;
  }

  /** A match in the last column overrides whatever the earlier columns
      captured. */
  lemma {:induction false} LastMatchSnoc(b: Board, c: Column, fromColId: string, cardId: string)
    ensures LastMatch(b + [c], fromColId, cardId) ==
      if c.id == fromColId && LastCardWithId(c.cards, cardId).Some?
      then LastCardWithId(c.cards, cardId) else LastMatch(b, fromColId, cardId)
  {
    assert (b + [c])[..|b|] == b;
  }

  /** A card moved to another column leaves its origin and becomes the last
      card of the target; every other column and every other card stays. */
  lemma {:induction false} MoveCardBetweenColumns(b: Board, p: nat, k: nat, q: nat)
    requires UniqueIds(b) && p < |b| && q < |b| && p != q && k < |b[p].cards|
    ensures MoveCard(b, b[p].cards[k].id, b[p].id, b[q].id) ==
      b[p := b[p].(cards := Seqs.RemoveAt(b[p].cards, k))]
       [q := b[q].(cards := b[q].cards + [b[p].cards[k]])]
    ensures multiset(Flatten(MoveCard(b, b[p].cards[k].id, b[p].id, b[q].id)))
         == multiset(Flatten(b))
    ensures UniqueIds(MoveCard(b, b[p].cards[k].id, b[p].id, b[q].id))
  {
    var card := b[p].cards[k];
    MovedCardIsCaptured(b, p, k);
    DeleteCardRemovesOne(b, p, k);
    var d := DeleteCard(b, b[p].id, card.id);
    var r := d[q := d[q].(cards := d[q].cards + [card])];
    assert MoveCard(b, card.id, b[p].id, b[q].id) == r by {
      UniqueColumnAt(b, q);
      AppendCardAt(d, q, card);
    }
    FlattenAppendCard(d, q, card);
    SameColumnIds(r, b);
    ConservedCardsKeepUnique(b, r);
  }

  /** Moving a card within its own column sends it to the tail. */
  lemma {:induction false} MoveCardWithinColumn(b: Board, p: nat, k: nat)
    requires UniqueIds(b) && p < |b| && k < |b[p].cards|
    ensures MoveCard(b, b[p].cards[k].id, b[p].id, b[p].id) ==
      b[p := b[p].(cards := Seqs.RemoveAt(b[p].cards, k) + [b[p].cards[k]])]
    ensures multiset(Flatten(MoveCard(b, b[p].cards[k].id, b[p].id, b[p].id)))
         == multiset(Flatten(b))
    ensures UniqueIds(MoveCard(b, b[p].cards[k].id, b[p].id, b[p].id))
  {
    var card := b[p].cards[k];
    var d := b[p := b[p].(cards := Seqs.RemoveAt(b[p].cards, k))];
    var r := d[p := d[p].(cards := d[p].cards + [card])];
    assert MoveCard(b, card.id, b[p].id, b[p].id) == r by {
      MoveWithinColumnShape(b, p, k);
    }
    assert multiset(Flatten(r)) == multiset(Flatten(b)) by {
      FlattenRemoveCard(b, p, k);
      FlattenAppendCard(d, p, card);
    }
    assert UniqueIds(r) by {
      SameColumnIds(r, b);
      ConservedCardsKeepUnique(b, r);
    }
  }

  lemma {:induction false} MoveWithinColumnShape(b: Board, p: nat, k: nat)
    requires UniqueIds(b) && p < |b| && k < |b[p].cards|
    ensures var d := b[p := b[p].(cards := Seqs.RemoveAt(b[p].cards, k))];
      MoveCard(b, b[p].cards[k].id, b[p].id, b[p].id) == d[p := d[p].(cards := d[p].cards + [b[p].cards[k]])]
  {
    var card := b[p].cards[k];
    var d := DeleteCard(b, b[p].id, card.id);
    assert d == b[p := b[p].(cards := Seqs.RemoveAt(b[p].cards, k))] by {
      DeleteCardRemovesOne(b, p, k);
    }
    MovedCardIsCaptured(b, p, k);
    UniqueColumnAt(b, p);
    AppendCardAt(d, p, card);
  }

  /** Every server move keeps ids unique, whatever the card, origin and
      target ids: nothing happens when no origin column holds the card, and
      otherwise the captured card leaves its column and arrives in at most
      one other place. */
  lemma {:induction false} MoveCardKeepsUnique(b: Board, cardId: string, fromColId: string, toColId: string)
    requires UniqueIds(b)
    ensures UniqueIds(MoveCard(b, cardId, fromColId, toColId))
  {
    if LastMatch(b, fromColId, cardId).Some? {
      var p, k := CapturedPosition(b, fromColId, cardId);
      if toColId == fromColId {
        assert UniqueIds(MoveCard(b, b[p].cards[k].id, b[p].id, b[p].id)) by {
          MoveCardWithinColumn(b, p, k);
        }
      } else if toColId in ColumnIds(b) {
        var q :| 0 <= q < |b| && ColumnIds(b)[q] == toColId;
        assert UniqueIds(MoveCard(b, b[p].cards[k].id, b[p].id, b[q].id)) by {
          MoveCardBetweenColumns(b, p, k, q);
        }
      } else {
        assert MoveCard(b, cardId, fromColId, toColId) == DeleteCard(b, fromColId, cardId) by {
          MoveCardToMissingColumn(b, p, k, toColId);
          DeleteCardRemovesOne(b, p, k);
        }
        DeleteCardKeepsUnique(b, fromColId, cardId);
      }
    }
  }

  /** A position of the card the server captures. */
  lemma {:induction false} CapturedPosition(b: Board, fromColId: string, cardId: string) returns (p: nat, k: nat)
    requires LastMatch(b, fromColId, cardId).Some?
    ensures p < |b| && b[p].id == fromColId && k < |b[p].cards| && b[p].cards[k].id == cardId
  {
    var m := LastMatch(b, fromColId, cardId);
    LastMatchIsLastOriginMatch(b, fromColId, cardId);
    var p' :| 0 <= p' < |b| && b[p'].id == fromColId && m == LastCardWithId(b[p'].cards, cardId) &&
      forall q | p' < q < |b| && b[q].id == fromColId :: cardId !in CardIds(b[q].cards);
    p := p';
    k :| 0 <= k < |b[p].cards| && b[p].cards[k] == m.value &&
      forall j | k < j < |b[p].cards| :: b[p].cards[j].id != cardId;
  }

  /** With unique ids, the card the server captures is the one at `k`. */
  lemma {:induction false} MovedCardIsCaptured(b: Board, p: nat, k: nat)
    requires UniqueIds(b) && p < |b| && k < |b[p].cards|
    ensures LastMatch(b, b[p].id, b[p].cards[k].id) == Some(b[p].cards[k])
    ensures FindInLastColumn(b, b[p].id, b[p].cards[k].id) == Some(b[p].cards[k])
  {
    UniqueColumnAt(b, p);
    LastMatchAt(b, p, b[p].cards[k].id);
    FindInLastColumnAt(b, p, b[p].cards[k].id);
    ColumnCardsDistinct(b, p);
    LastAndFirstMatchAt(b[p].cards, k);
  }

  /** Appending to the one column with a given id. */
  lemma {:induction false} AppendCardAt(b: Board, q: nat, card: Card)
    requires q < |b| && forall i | 0 <= i < |b| && i != q :: b[i].id != b[q].id
    ensures AppendCard(b, b[q].id, card) == b[q := b[q].(cards := b[q].cards + [card])]
  {
    var m := AppendCard(b, b[q].id, card);
    var r := b[q := b[q].(cards := b[q].cards + [card])];
    forall i | 0 <= i < |b| ensures m[i] == r[i] {
    }
  }

  /** A card moved to a column that does not exist is lost: it leaves its
      origin and arrives nowhere. */
  lemma {:induction false} MoveCardToMissingColumn(b: Board, p: nat, k: nat, toColId: string)
    requires UniqueIds(b) && p < |b| && k < |b[p].cards| && toColId !in ColumnIds(b)
    ensures MoveCard(b, b[p].cards[k].id, b[p].id, toColId) ==
      b[p := b[p].(cards := Seqs.RemoveAt(b[p].cards, k))]
    ensures |Flatten(MoveCard(b, b[p].cards[k].id, b[p].id, toColId))| + 1 == |Flatten(b)|
  {
    var card := b[p].cards[k];
    MovedCardIsCaptured(b, p, k);
    DeleteCardRemovesOne(b, p, k);
    var d := DeleteCard(b, b[p].id, card.id);
    assert MoveCard(b, card.id, b[p].id, toColId) == d by {
      SameColumnIds(d, b);
      AppendCardToMissing(d, toColId, card);
    }
    assert |multiset(Flatten(d))| + 1 == |multiset(Flatten(b))|;
  }

  /** Appending to a column id that is not on the board changes nothing. */
  lemma {:induction false} AppendCardToMissing(b: Board, colId: string, card: Card)
    requires colId !in ColumnIds(b)
    ensures AppendCard(b, colId, card) == b
  {
    var m := AppendCard(b, colId, card);
    forall i | 0 <= i < |b| ensures m[i] == b[i] {
      assert ColumnIds(b)[i] == b[i].id;
    }
  }


  /** Column ids unchanged and no card that was not there before: uniqueness
      holds afterwards as it did before. */
  lemma {:induction false} ConservedCardsKeepUnique(b: Board, r: Board)
    requires UniqueIds(b) && ColumnIds(r) == ColumnIds(b)
    requires multiset(Flatten(r)) <= multiset(Flatten(b))
    ensures UniqueIds(r)
  {
    CardIdsDistinctSub(Flatten(r), Flatten(b));
  }

  /** Card-level sub-multisets of a list with unique ids have unique ids. */
  lemma {:induction false} CardIdsDistinctSub(a: seq<Card>, b: seq<Card>)
    requires multiset(a) <= multiset(b) && Seqs.Distinct(CardIds(b))
    ensures Seqs.Distinct(CardIds(a))
  {
    CardIdsMonotone(a, b);
    Seqs.DistinctSub(CardIds(a), CardIds(b));
  }

  /** Boards whose columns agree on ids position by position have the same
      column ids. */
  lemma {:induction false} SameColumnIds(a: Board, b: Board)
    requires |a| == |b| && forall i | 0 <= i < |a| :: a[i].id == b[i].id
    ensures ColumnIds(a) == ColumnIds(b)
  {
  }

  // ---------------------------------------------------------------------
  // Dropping a card (the client hooks and the inline board)

  /** When the dragged card is not in its origin column any more, a drop
      gives back the board unchanged. */
  lemma {:induction false} DropCardAbsent(b: Board, dragged: DraggedCard, toColId: string)
    requires forall i | 0 <= i < |b| && b[i].id == dragged.fromColId ::
      dragged.cardId !in CardIds(b[i].cards)
    ensures DropCardColumns(b, dragged, toColId) == b
  {
    DeleteCardAbsent(b, dragged.fromColId, dragged.cardId);
  }

  /** On a board with unique ids the client's drop computes the same board
      as the server's `moveCard`. */
  lemma {:induction false} DropCardMatchesMoveCard(b: Board, dragged: DraggedCard, toColId: string)
    requires UniqueIds(b)
    ensures DropCardColumns(b, dragged, toColId) ==
      MoveCard(b, dragged.cardId, dragged.fromColId, toColId)
  {
    var p := IndexOf(b, dragged.fromColId);
    if p == -1 {
      DropCardAbsent(b, dragged, toColId);
    } else {
      UniqueColumnAt(b, p);
      LastMatchAt(b, p, dragged.cardId);
      FindInLastColumnAt(b, p, dragged.cardId);
      var cards := b[p].cards;
      if dragged.cardId in CardIds(cards) {
        var k :| 0 <= k < |cards| && CardIds(cards)[k] == dragged.cardId;
        ColumnCardsDistinct(b, p);
        LastAndFirstMatchAt(cards, k);
      } else {
        DropCardAbsent(b, dragged, toColId);
      }
    }
  }

  // ---------------------------------------------------------------------
  // Reordering columns

  /** A reorder only permutes columns: ids and cards stay unique. */
  lemma {:induction false} ReorderColumnsKeepsUnique(b: Board, draggedColId: string, targetColId: string)
    requires UniqueIds(b)
    ensures UniqueIds(ReorderColumns(b, draggedColId, targetColId))
    ensures multiset(Flatten(ReorderColumns(b, draggedColId, targetColId))) == multiset(Flatten(b))
  {
    var r := ReorderColumns(b, draggedColId, targetColId);
    assert Seqs.Distinct(ColumnIds(r)) by {
      ColumnIdsMonotone(r, b);
      Seqs.DistinctSub(ColumnIds(r), ColumnIds(b));
    }
    assert multiset(Flatten(r)) == multiset(Flatten(b)) by {
      FlattenMonotone(r, b);
      FlattenMonotone(b, r);
    }
    CardIdsDistinctSub(Flatten(r), Flatten(b));
  }

  /** Dragging a column onto itself changes nothing. */
  lemma {:induction false} ReorderOntoItself(b: Board, colId: string)
    ensures ReorderColumns(b, colId, colId) == b
  {
    var i := IndexOf(b, colId);
    if i >= 0 {
      Seqs.SpliceMoveRotates(b, i, i);
    }
  }

  // ---------------------------------------------------------------------
  // The seed board

  lemma {:induction false} FlattenThree(c0: Column, c1: Column, c2: Column)
    ensures Flatten([c0, c1, c2]) == c0.cards + c1.cards + c2.cards
  {
    assert [c0, c1, c2][..2] == [c0, c1];
    assert [c0, c1][..1] == [c0];
    assert [c0][..0] == [];
    assert Flatten([c0]) == c0.cards;
    assert Flatten([c0, c1]) == c0.cards + c1.cards;
  }

  lemma {:induction false} SeedUnique(todoId: string, progressId: string, doneId: string, sampleId: string)
    requires todoId != progressId && todoId != doneId && progressId != doneId
    ensures UniqueIds(Seed(todoId, progressId, doneId, sampleId))
  {
    var b := Seed(todoId, progressId, doneId, sampleId);
    var ids := [todoId, progressId, doneId];
    assert ColumnIds(b) == ids;
    assert Seqs.Distinct(ids) by {
      assert multiset(ids) == multiset{todoId} + multiset{progressId} + multiset{doneId};
    }
    assert CardIds(Flatten(b)) == [sampleId] by {
      FlattenThree(b[0], b[1], b[2]);
      assert Flatten(b) == [Card(sampleId, "Sample Task")];
    }
  }
}

=== FILE: seqs.dfy ===
/** Sequence operations the board code uses through JavaScript's array
    methods: `map`, `filter`, and `splice` used as "remove one" and
    "insert one". */
module Seqs {

  /** `xs.map(f)`. */
  function Map<T, U>(s: seq<T>, f: T -> U): seq<U>
  {
    seq(|s|, i requires 0 <= i < |s| => f(s[i]))
  }

  /** `a` can be obtained from `b` by deleting elements: the elements of `a`
      appear in `b` in the same relative order. */
  predicate Subsequence<T(==)>(a: seq<T>, b: seq<T>)
    decreases |b|
  {
    a == [] ||
    (b != [] &&
     ((a[|a| - 1] == b[|b| - 1] && Subsequence(a[..|a| - 1], b[..|b| - 1])) ||
      Subsequence(a, b[..|b| - 1])))
  }

  /** `xs.filter(keep)`. */
  function Filter<T>(s: seq<T>, keep: T -> bool): seq<T>
  {
    if s == [] then []
    else if keep(s[|s| - 1]) then Filter(s[..|s| - 1], keep) + [s[|s| - 1]]
    else Filter(s[..|s| - 1], keep)
  }

  /** No element occurs twice. */
  predicate Distinct<T(==)>(s: seq<T>)
  {
    forall x | x in s :: multiset(s)[x] == 1
  }

  /** `splice(i, 1)`: drop the element at index `i`. */
  function RemoveAt<T>(s: seq<T>, i: nat): (r: seq<T>)
    requires i < |s|
    ensures |r| == |s| - 1
  {
    s[..i] + s[i + 1..]
  }

  /** `splice(i, 0, x)`: insert `x` so that it ends up at index `i`. */
  function InsertAt<T>(s: seq<T>, i: nat, x: T): (r: seq<T>)
    requires i <= |s|
    ensures |r| == |s| + 1
  {
    s[..i] + [x] + s[i..]
  }

  /** The two splices of a drag-and-drop reorder: take the element at `from`
      out, then put it back in at `to` (an index of the original sequence). */
  function SpliceMove<T(==)>(s: seq<T>, from: nat, to: nat): (r: seq<T>)
    requires from < |s| && to < |s|
    ensures |r| == |s|
    ensures r[to] == s[from]
    ensures RemoveAt(r, to) == RemoveAt(s, from)
    ensures multiset(r) == multiset(s)
  {
    var rest := RemoveAt(s, from);
    assert s == s[..from] + [s[from]] + s[from + 1..];
    assert multiset(s) == multiset(rest) + multiset{s[from]};
    var r := InsertAt(rest, to, s[from]);
    assert rest == rest[..to] + rest[to..];
    assert r[..to] + r[to + 1..] == rest;
    r
  }

  // ---------------------------------------------------------------------
  // Facts about the operations above

  /** What `filter` promises: the elements that pass, in their original
      order, each as often as in the input, and nothing else. */
  lemma {:induction false} FilterSpec<T>(s: seq<T>, keep: T -> bool)
    ensures Subsequence(Filter(s, keep), s)
    ensures |Filter(s, keep)| <= |s|
    ensures multiset(Filter(s, keep)) <= multiset(s)
    ensures forall x | x in Filter(s, keep) :: keep(x)
    ensures forall x | x in s && keep(x) :: multiset(Filter(s, keep))[x] == multiset(s)[x]
  {
    FilterSubsequence(s, keep);
    FilterCounts(s, keep);
  }

  lemma {:induction false} FilterSubsequence<T>(s: seq<T>, keep: T -> bool)
    ensures Subsequence(Filter(s, keep), s)
    decreases |s|
  {
    if s != [] {
      var init := s[..|s| - 1];
      FilterSubsequence(init, keep);
      if keep(s[|s| - 1]) {
        assert Filter(s, keep)[..|Filter(s, keep)| - 1] == Filter(init, keep);
      }
    }
  }

  lemma {:induction false} FilterCounts<T>(s: seq<T>, keep: T -> bool)
    ensures |Filter(s, keep)| <= |s|
    ensures multiset(Filter(s, keep)) <= multiset(s)
    ensures forall x | x in Filter(s, keep) :: keep(x)
    ensures forall x | x in s && keep(x) :: multiset(Filter(s, keep))[x] == multiset(s)[x]
    decreases |s|
  {
    if s != [] {
      var init, last := s[..|s| - 1], s[|s| - 1];
      FilterCounts(init, keep);
      assert s == init + [last];
      assert multiset(s) == multiset(init) + multiset{last};
      if keep(last) {
        assert Filter(s, keep) == Filter(init, keep) + [last];
        assert multiset(Filter(s, keep)) == multiset(Filter(init, keep)) + multiset{last};
      }
    }
  }

  lemma {:induction false} FilterAppend<T>(a: seq<T>, b: seq<T>, keep: T -> bool)
    ensures Filter(a + b, keep) == Filter(a, keep) + Filter(b, keep)
    decreases |b|
  {
    if b == [] {
      assert a + b == a;
    } else {
      var b' := b[..|b| - 1];
      assert (a + b)[..|a + b| - 1] == a + b';
      FilterAppend(a, b', keep);
    }
  }

  /** A filter that keeps everything is the identity. */
  lemma {:induction false} FilterKeepsAll<T>(s: seq<T>, keep: T -> bool)
    requires forall i | 0 <= i < |s| :: keep(s[i])
    ensures Filter(s, keep) == s
    decreases |s|
  {
    if s != [] {
      FilterKeepsAll(s[..|s| - 1], keep);
    }
  }

  /** A filter that rejects exactly one position removes exactly that one. */
  lemma {:induction false} FilterRejectsOne<T>(s: seq<T>, keep: T -> bool, k: nat)
    requires k < |s| && !keep(s[k])
    requires forall i | 0 <= i < |s| && i != k :: keep(s[i])
    ensures Filter(s, keep) == RemoveAt(s, k)
  {
    var pre, post := s[..k], s[k + 1..];
    var tail := [s[k]] + post;
    assert Filter(pre, keep) == pre by {
      FilterKeepsAll(pre, keep);
    }
    assert Filter(post, keep) == post by {
      forall i | 0 <= i < |post| ensures keep(post[i]) {
        assert post[i] == s[k + 1 + i];
      }
      FilterKeepsAll(post, keep);
    }
    assert Filter(tail, keep) == Filter(post, keep) by {
      FilterAppend([s[k]], post, keep);
      assert [s[k]][..0] == [];
    }
    assert Filter(s, keep) == Filter(pre, keep) + Filter(tail, keep) by {
      assert s == pre + tail;
      FilterAppend(pre, tail, keep);
    }
  }

  /** Projecting a sub-multiset yields a sub-multiset. */
  lemma {:induction false} MapMonotone<T, U>(a: seq<T>, b: seq<T>, f: T -> U)
    requires multiset(a) <= multiset(b)
    ensures multiset(Map(a, f)) <= multiset(Map(b, f))
    decreases |a|
  {
    if a != [] {
      var a', x := a[..|a| - 1], a[|a| - 1];
      assert a == a' + [x];
      assert multiset(a) == multiset(a') + multiset{x};
      assert x in multiset(b);
      var j :| 0 <= j < |b| && b[j] == x;
      var b' := RemoveAt(b, j);
      MultisetRemoveAt(b, j);
      forall y ensures multiset(a')[y] <= multiset(b')[y] {
        assert multiset(a)[y] <= multiset(b)[y];
      }
      MapMonotone(a', b', f);
      MapRemoveAt(b, j, f);
      MapAppend(a', [x], f);
      assert multiset(Map(a, f)) == multiset(Map(a', f)) + multiset{f(x)};
    }
  }

  /** Removing the element at `j` removes one occurrence of it. */
  lemma {:induction false} MultisetRemoveAt<T>(s: seq<T>, j: nat)
    requires j < |s|
    ensures multiset(s) == multiset(RemoveAt(s, j)) + multiset{s[j]}
  {
    assert s == s[..j] + [s[j]] + s[j + 1..];
  }

  /** Projecting commutes with removing the element at `j`. */
  lemma {:induction false} MapRemoveAt<T, U>(s: seq<T>, j: nat, f: T -> U)
    requires j < |s|
    ensures multiset(Map(s, f)) == multiset(Map(RemoveAt(s, j), f)) + multiset{f(s[j])}
  {
    var m := Map(s, f);
    assert Map(RemoveAt(s, j), f) == RemoveAt(m, j);
    MultisetRemoveAt(m, j);
  }

  lemma {:induction false} DistinctSub<T>(a: seq<T>, b: seq<T>)
    requires Distinct(b) && multiset(a) <= multiset(b)
    ensures Distinct(a)
  {
  }

  /** Appending an element not yet present keeps a sequence distinct. */
  lemma {:induction false} DistinctAppend<T>(s: seq<T>, x: T)
    requires Distinct(s) && x !in s
    ensures Distinct(s + [x])
  {
    assert multiset(s + [x]) == multiset(s) + multiset{x};
    assert multiset(s)[x] == 0;
  }

  lemma {:induction false} MapAppend<T, U>(a: seq<T>, b: seq<T>, f: T -> U)
    ensures Map(a + b, f) == Map(a, f) + Map(b, f)
  {
  }

  /** Distinctness, stated on positions. */
  lemma {:induction false} DistinctAt<T>(s: seq<T>, i: nat, j: nat)
    requires Distinct(s) && i < |s| && j < |s| && i != j
    ensures s[i] != s[j]
  {
    var lo, hi := if i < j then i else j, if i < j then j else i;
    assert s == s[..hi] + s[hi..];
    assert s[lo] in multiset(s[..hi]) && s[hi] in multiset(s[hi..]);
    assert multiset(s)[s[lo]] == multiset(s[..hi])[s[lo]] + multiset(s[hi..])[s[lo]];
  }

  /** Splice-move, described as a rotation of the segment between the two
      indices: moving right shifts the elements in between one step left,
      moving left shifts them one step right. */
  lemma {:induction false} SpliceMoveRotates<T>(s: seq<T>, from: nat, to: nat)
    requires from < |s| && to < |s|
    ensures from == to ==> SpliceMove(s, from, to) == s
    ensures from < to ==>
      SpliceMove(s, from, to) == s[..from] + s[from + 1..to + 1] + [s[from]] + s[to + 1..]
    ensures to < from ==>
      SpliceMove(s, from, to) == s[..to] + [s[from]] + s[to..from] + s[from + 1..]
  {
    var rest := RemoveAt(s, from);
    if from == to {
      assert s == s[..from] + [s[from]] + s[from + 1..];
    } else if from < to {
      assert rest[..to] == s[..from] + s[from + 1..to + 1];
      assert rest[to..] == s[to + 1..];
    } else {
      assert rest[..to] == s[..to];
      assert rest[to..] == s[to..from] + s[from + 1..];
    }
  }
}

=== FILE: server_actions.dfy ===
/** The server actions: each one reads the stored board, transforms it and
    writes it back. The board file is modelled as the `document` field of a
    `Store`; reading a missing or unreadable file yields the seed board. */
module ServerActions {
  import Seqs
  import opened Kanban
  import KanbanProperties

  /** The `filter` callback of `moveCard` over one origin column: the cards
      without the id are kept in order, and the last card with the id (if
      any) replaces what `movedCard` held before. */
  method FilterCapture(cards: seq<Card>, cardId: string, before: Option<Card>)
    returns (kept: seq<Card>, movedCard: Option<Card>)
    ensures kept == RemoveCard(cards, cardId)
    ensures LastCardWithId(cards, cardId).Some? ==> movedCard == LastCardWithId(cards, cardId)
    ensures LastCardWithId(cards, cardId).None? ==> movedCard == before
  {
    kept := [];
    movedCard := before;
    var j := 0;
    while j < |cards|
      invariant 0 <= j <= |cards|
      invariant kept == RemoveCard(cards[..j], cardId)
      invariant LastCardWithId(cards[..j], cardId).Some? ==> movedCard == LastCardWithId(cards[..j], cardId)
      invariant LastCardWithId(cards[..j], cardId).None? ==> movedCard == before
    {
      var card := cards[j];
      assert cards[..j + 1][..j] == cards[..j];
      if card.id == cardId {
        movedCard := Some(card);
      } else {
        kept := kept + [card];
      }
      j := j + 1;
    }
    assert cards[..j] == cards;
  }

  class Store {
    /** The parsed board file; `None` when it is missing or unreadable. */
    var document: Option<Board>
    /** What `getColumns` returns when there is no readable file. */
    const seed: Board

    /** `defaultColumns`: the seed board, with ids drawn once when the
        module is loaded. */
    constructor (document: Option<Board>, todoId: string, progressId: string, doneId: string, sampleId: string)
      ensures this.document == document
      ensures seed == Seed(todoId, progressId, doneId, sampleId)
    {
      this.document := document;
      seed := Seed(todoId, progressId, doneId, sampleId);
    }

    /** `getColumns()`. */
    function Current(): Board
      reads this
    {
      if document.Some? then document.value else seed
    }

    /** `addColumn(title)`: `None` for a blank title, which neither reads nor
        writes the board. */
    method AddColumn(title: string, freshId: string) returns (r: Option<Board>)
      modifies this
      ensures r == Kanban.AddColumn(old(Current()), title, freshId)
      ensures r.None? ==> document == old(document)
      ensures r.Some? ==> document == r
    {
      if Blank(title) {
        return None;
      }
      var columns := Current();
      columns := columns + [Column(freshId, title, [])];
      document := Some(columns);
      r := Some(columns);
    }

    /** `deleteColumn(colId)`. */
    method DeleteColumn(colId: string) returns (r: Board)
      modifies this
      ensures r == Kanban.DeleteColumn(old(Current()), colId)
      ensures document == Some(r)
    {
      var columns := Current();
      r := Kanban.DeleteColumn(columns, colId);
      document := Some(r);
    }

    /** `renameColumn(colId, newTitle)`; any title is accepted. */
    method RenameColumn(colId: string, newTitle: string) returns (r: Board)
      modifies this
      ensures r == Kanban.RenameColumn(old(Current()), colId, newTitle)
      ensures document == Some(r)
    {
      var columns := Current();
      r := Kanban.RenameColumn(columns, colId, newTitle);
      document := Some(r);
    }

    /** `addCard(colId, content)`: `None` for blank content, which neither
        reads nor writes the board. */
    method AddCard(colId: string, content: string, freshId: string) returns (r: Option<Board>)
      modifies this
      ensures r == Kanban.AddCard(old(Current()), colId, content, freshId)
      ensures r.None? ==> document == old(document)
      ensures r.Some? ==> document == r
    {
      if Blank(content) {
        return None;
      }
      var columns := Current();
      var updated := Kanban.AddCard(columns, colId, content, freshId).value;
      document := Some(updated);
      r := Some(updated);
    }

    /** `deleteCard(colId, cardId)`. */
    method DeleteCard(colId: string, cardId: string) returns (r: Board)
      modifies this
      ensures r == Kanban.DeleteCard(old(Current()), colId, cardId)
      ensures document == Some(r)
    {
      var columns := Current();
      r := Kanban.DeleteCard(columns, colId, cardId);
      document := Some(r);
    }

    /** `moveCard(cardId, fromColId, toColId)`. The `filter` callback over the
        cards of every origin column records each match in `movedCard`; the
        board is written only when a card was captured. */
    method MoveCard(cardId: string, fromColId: string, toColId: string) returns (r: Board)
      modifies this
      ensures r == Kanban.MoveCard(old(Current()), cardId, fromColId, toColId)
      ensures LastMatch(old(Current()), fromColId, cardId).None? ==> document == old(document)
      ensures LastMatch(old(Current()), fromColId, cardId).Some? ==> document == Some(r)
    {
      var columns := Current();
      var movedCard: Option<Card> := None;
      var updated: Board := [];
      var i := 0;
      while i < |columns|
        invariant 0 <= i <= |columns|
        invariant updated == Kanban.DeleteCard(columns[..i], fromColId, cardId)
        invariant movedCard == LastMatch(columns[..i], fromColId, cardId)
        invariant document == old(document)
      {
        var col := columns[i];
        assert columns[..i + 1] == columns[..i] + [col];
        KanbanProperties.DeleteCardSnoc(columns[..i], col, fromColId, cardId);
        KanbanProperties.LastMatchSnoc(columns[..i], col, fromColId, cardId);
        if col.id == fromColId {
          var cards;
          cards, movedCard := FilterCapture(col.cards, cardId, movedCard);
          updated := updated + [col.(cards := cards)];
        } else {
          updated := updated + [col];
        }
        i := i + 1;
      }
      assert columns[..i] == columns;
      match movedCard
      case None =>
        r := columns;
      case Some(card) =>
        r := AppendCard(updated, toColId, card);
        document := Some(r);
    }

    /** `reorderColumns(draggedColId, targetColId)`: two splices on a copy of
        the board; nothing is written when either id is unknown. */
    method ReorderColumns(draggedColId: string, targetColId: string) returns (r: Board)
      modifies this
      ensures r == Kanban.ReorderColumns(old(Current()), draggedColId, targetColId)
      ensures IndexOf(old(Current()), draggedColId) == -1 || IndexOf(old(Current()), targetColId) == -1
        ==> document == old(document)
      ensures IndexOf(old(Current()), draggedColId) >= 0 && IndexOf(old(Current()), targetColId) >= 0
        ==> document == Some(r)
    {
      var columns := Current();
      var draggedIndex := IndexOf(columns, draggedColId);
      var targetIndex := IndexOf(columns, targetColId);
      if draggedIndex == -1 || targetIndex == -1 {
        return columns;
      }
      var reordered := columns;
      var removed := reordered[draggedIndex];
      reordered := Seqs.RemoveAt(reordered, draggedIndex);
      reordered := Seqs.InsertAt(reordered, targetIndex, removed);
      document := Some(reordered);
      r := reordered;
    }
  }
}

=== FILE: use_drag_and_drop.dfy ===
/** The drag-state tracker of `useDragAndDrop`: two independent slots, the
    card being dragged (with its origin column) and the id of the column being
    dragged, set by the drag-start handlers and cleared by a successful drop. */
module DragAndDrop {
  import Seqs
  import opened Kanban
  import KanbanProperties

  /** JavaScript truthiness of a `string | null` slot: `null` and `""` are
      falsy. */
  predicate Truthy(s: Option<string>)
  {
    s.Some? && s.value != ""
  }

  /** Both guards of `handleCardDrop` pass: a card is being dragged and the
      target is not its origin column. */
  predicate CardDropApplies(draggedCard: Option<DraggedCard>, toColId: string)
  {
    draggedCard.Some? && draggedCard.value.fromColId != toColId
  }

  /** The guards of `handleColumnDrop` all pass: a column (with a non-empty
      id) is being dragged onto another column, and both are on the board. */
  predicate ColumnDropApplies(draggedColId: Option<string>, targetColId: string, columns: Board)
  {
    Truthy(draggedColId) && draggedColId.value != targetColId &&
    IndexOf(columns, draggedColId.value) >= 0 && IndexOf(columns, targetColId) >= 0
  }

  /** The two chained `map`s of a card drop: the first strips the card from
      the origin columns and records the card it finds, the second appends
      the recorded card, if any, to the target column. */
  method DropCard(columns: Board, dragged: DraggedCard, toColId: string) returns (newColumns: Board)
    ensures newColumns == DropCardColumns(columns, dragged, toColId)
  {
    var stripped, cardToMove := StripCard(columns, dragged);
    newColumns := AppendCaptured(stripped, toColId, cardToMove);
  }

  /** The first `map`: every origin column loses the card, and each origin
      column in turn overwrites `cardToMove` with the result of its `find`. */
  method StripCard(columns: Board, dragged: DraggedCard) returns (stripped: Board, cardToMove: Option<Card>)
    ensures stripped == DeleteCard(columns, dragged.fromColId, dragged.cardId)
    ensures cardToMove == FindInLastColumn(columns, dragged.fromColId, dragged.cardId)
  {
    cardToMove := None;
    stripped := [];
    var i := 0;
    while i < |columns|
      invariant 0 <= i <= |columns|
      invariant stripped == DeleteCard(columns[..i], dragged.fromColId, dragged.cardId)
      invariant cardToMove == FindInLastColumn(columns[..i], dragged.fromColId, dragged.cardId)
    {
      var col := columns[i];
      assert columns[..i + 1] == columns[..i] + [col];
      KanbanProperties.DeleteCardSnoc(columns[..i], col, dragged.fromColId, dragged.cardId);
      KanbanProperties.FindInLastColumnSnoc(columns[..i], col, dragged.fromColId, dragged.cardId);
      if col.id == dragged.fromColId {
        cardToMove := FindCard(col.cards, dragged.cardId);
        stripped := stripped + [col.(cards := RemoveCard(col.cards, dragged.cardId))];
      } else {
        stripped := stripped + [col];
      }
      i := i + 1;
    }
    assert columns[..i] == columns;
  }

  /** The second `map`: the recorded card, if any, is appended to every
      column with `toColId`. */
  method AppendCaptured(stripped: Board, toColId: string, cardToMove: Option<Card>) returns (newColumns: Board)
    ensures cardToMove.None? ==> newColumns == stripped
    ensures cardToMove.Some? ==> newColumns == AppendCard(stripped, toColId, cardToMove.value)
  {
    newColumns := [];
    var k := 0;
    while k < |stripped|
      invariant 0 <= k <= |stripped|
      invariant |newColumns| == k
      invariant forall m | 0 <= m < k ::
        newColumns[m] ==
          if stripped[m].id == toColId && cardToMove.Some?
          then stripped[m].(cards := stripped[m].cards + [cardToMove.value])
          else stripped[m]
    {
      var col := stripped[k];
      if col.id == toColId && cardToMove.Some? {
        newColumns := newColumns + [col.(cards := col.cards + [cardToMove.value])];
      } else {
        newColumns := newColumns + [col];
      }
      k := k + 1;
    }
    if cardToMove.Some? {
      assert newColumns == AppendCard(stripped, toColId, cardToMove.value);
    } else {
      assert newColumns == stripped;
    }
  }

  class DragTracker {
    var draggedCard: Option<DraggedCard>
    var draggedColId: Option<string>

    /** Both slots start empty. */
    constructor ()
      ensures draggedCard == None && draggedColId == None
    {
      draggedCard := None;
      draggedColId := None;
    }

    /** `handleCardDragStart`: overwrites the card slot only. */
    method CardDragStart(cardId: string, fromColId: string)
      modifies this
      ensures draggedCard == Some(DraggedCard(cardId, fromColId))
      ensures draggedColId == old(draggedColId)
    {
      draggedCard := Some(DraggedCard(cardId, fromColId));
    }

    /** `handleCardDrop(toColId, columns, setColumns)`: `None` when
        `setColumns` is not called. Without a dragged card, or onto the
        origin column, nothing changes and the card slot stays as it was;
        otherwise the new board is handed to `setColumns` (even when the card
        was not found and the board is unchanged) and the card slot is
        cleared. */
    method CardDrop(toColId: string, columns: Board) returns (newColumns: Option<Board>)
      modifies this
      ensures draggedColId == old(draggedColId)
      ensures !CardDropApplies(old(draggedCard), toColId) ==>
        newColumns.None? && draggedCard == old(draggedCard)
      ensures CardDropApplies(old(draggedCard), toColId) ==>
        newColumns == Some(DropCardColumns(columns, old(draggedCard).value, toColId)) &&
        draggedCard.None?
    {
      if draggedCard.None? {
        return None;
      }
      if draggedCard.value.fromColId == toColId {
        return None;
      }
      var updated := DropCard(columns, draggedCard.value, toColId);
      newColumns := Some(updated);
      draggedCard := None;
    }

    /** `handleColumnDragStart`: overwrites the column slot only. */
    method ColumnDragStart(colId: string)
      modifies this
      ensures draggedColId == Some(colId)
      ensures draggedCard == old(draggedCard)
    {
      draggedColId := Some(colId);
    }

    /** `handleColumnDrop(targetColId, columns, setColumns)`: `None` when
        `setColumns` is not called. Nothing changes when no column (or the
        empty id) is being dragged, when it is dropped on itself, or when
        either id is not on the board; otherwise the board is splice-moved on
        a copy and the column slot is cleared. */
    method ColumnDrop(targetColId: string, columns: Board) returns (newColumns: Option<Board>)
      modifies this
      ensures draggedCard == old(draggedCard)
      ensures !ColumnDropApplies(old(draggedColId), targetColId, columns) ==>
        newColumns.None? && draggedColId == old(draggedColId)
      ensures ColumnDropApplies(old(draggedColId), targetColId, columns) ==>
        newColumns == Some(ReorderColumns(columns, old(draggedColId).value, targetColId)) &&
        draggedColId.None?
    {
      if !Truthy(draggedColId) || draggedColId.value == targetColId {
        return None;
      }
      var fromIdx := IndexOf(columns, draggedColId.value);
      var toIdx := IndexOf(columns, targetColId);
      if fromIdx == -1 || toIdx == -1 {
        return None;
      }
      var reordered := columns;
      var movedColumn := reordered[fromIdx];
      reordered := Seqs.RemoveAt(reordered, fromIdx);
      reordered := Seqs.InsertAt(reordered, toIdx, movedColumn);
      newColumns := Some(reordered);
      draggedColId := None;
    }

    /** `handleColumnDragEnd`: clears the column slot only. */
    method ColumnDragEnd()
      modifies this
      ensures draggedColId.None?
      ensures draggedCard == old(draggedCard)
    {
      draggedColId := None;
    }

    /** `isColumnDragged(colId)`. */
    predicate IsColumnDragged(colId: string)
      reads this
    {
      draggedColId == Some(colId)
    }

    /** `isCardDraggedOverColumn(colId)`: a card drag from another column is
        in progress. */
    predicate IsCardDraggedOverColumn(colId: string)
      reads this
    {
      draggedCard.Some? && draggedCard.value.fromColId != colId
    }

    /** `isColumnDropTarget(colId)`: a drag of another column is in progress;
        a dragged empty id counts, because the test is `!== null`. */
    predicate IsColumnDropTarget(colId: string)
      reads this
    {
      draggedColId.Some? && draggedColId.value != colId
    }
  }

  /** A column is highlighted as a card drop target exactly when a card drop
      onto it gets past both guards of `handleCardDrop`, that is, exactly
      when `CardDrop` would hand a new board to `setColumns`. */
  lemma {:induction false} CardDropTargetsAreAccepted(t: DragTracker, colId: string)
    ensures t.IsCardDraggedOverColumn(colId) <==> CardDropApplies(t.draggedCard, colId)
  {
  }

  /** The dragged column is never its own drop target, and a drop target
      exists only while some column is being dragged. A drop on a
      highlighted column is accepted exactly when the dragged id is non-empty
      and both columns are on the board; so while the empty id is dragged,
      every other column is highlighted although `handleColumnDrop` ignores
      the drop, whatever the board. */
  lemma {:induction false} ColumnDropTargets(t: DragTracker, colId: string, columns: Board)
    ensures t.IsColumnDragged(colId) ==> !t.IsColumnDropTarget(colId)
    ensures t.IsColumnDropTarget(colId) ==> t.draggedColId.Some? && !t.IsColumnDragged(colId)
    ensures ColumnDropApplies(t.draggedColId, colId, columns) <==>
      t.IsColumnDropTarget(colId) && Truthy(t.draggedColId) &&
      IndexOf(columns, t.draggedColId.value) >= 0 && IndexOf(columns, colId) >= 0
    ensures t.draggedColId == Some("") && colId != "" ==>
      t.IsColumnDropTarget(colId) && !ColumnDropApplies(t.draggedColId, colId, columns)
  {
  }
}

=== FILE: use_drag_and_drop_js.dfy ===
/** The JavaScript twin of the drag tracker. Its state, its five handlers and
    its `isColumnDragged` and `isCardDraggedOverColumn` are those of
    `DragAndDrop.DragTracker` (a dragged-card object is always truthy). Only
    `isColumnDropTarget` differs: it tests the dragged column id for
    truthiness, so a dragged empty id marks no column as a drop target. */
module DragAndDropJs {
  import opened Kanban
  import opened DragAndDrop

  /** `draggedColId && draggedColId !== colId`, read as a condition. */
  predicate IsColumnDropTarget(draggedColId: Option<string>, colId: string)
  {
    Truthy(draggedColId) && draggedColId.value != colId
  }

  /** The JS and TS predicates agree except while the empty id is dragged. */
  lemma {:induction false} ColumnDropTargetVersusTs(t: DragTracker, colId: string)
    ensures IsColumnDropTarget(t.draggedColId, colId) <==>
      t.IsColumnDropTarget(colId) && t.draggedColId != Some("")
    ensures t.draggedColId == Some("") && colId != "" ==>
      t.IsColumnDropTarget(colId) && !IsColumnDropTarget(t.draggedColId, colId)
  {
  }

  /** On a board holding both columns, the JS predicate marks exactly the
      columns a drop onto which `handleColumnDrop` accepts; the TS predicate
      marks more while the empty id is dragged. */
  lemma {:induction false} ColumnDropTargetMatchesGuard(draggedColId: Option<string>, colId: string, columns: Board)
    ensures (IsColumnDropTarget(draggedColId, colId) &&
             IndexOf(columns, draggedColId.value) >= 0 && IndexOf(columns, colId) >= 0)
      <==> ColumnDropApplies(draggedColId, colId, columns)
  {
  }
}

=== FILE: use_kanban.dfy ===
/** The `useKanban` hook: the board and the new-column input as state, each
    handler replacing them with a value computed by the board transforms, and
    the drops delegated to the drag tracker with the current board. */
module UseKanban {
  import opened Kanban
  import DragAndDrop

  class KanbanHook {
    var columns: Board
    var newColumnTitle: string
    const dnd: DragAndDrop.DragTracker

    /** The stored board (or the seed board), an empty input and an idle
        tracker. */
    constructor (initial: Board)
      ensures columns == initial && newColumnTitle == ""
      ensures fresh(dnd) && dnd.draggedCard.None? && dnd.draggedColId.None?
    {
      columns := initial;
      newColumnTitle := "";
      dnd := new DragAndDrop.DragTracker();
    }

    /** `setNewColumnTitle(text)`. */
    method SetNewColumnTitle(text: string)
      modifies this
      ensures newColumnTitle == text && columns == old(columns)
    {
      newColumnTitle := text;
    }

    /** `addColumn()`: with a blank input nothing changes; otherwise a column
        titled with the untrimmed input is appended and the input cleared. */
    method AddColumn(freshId: string)
      modifies this
      ensures Blank(old(newColumnTitle)) ==>
        columns == old(columns) && newColumnTitle == old(newColumnTitle)
      ensures !Blank(old(newColumnTitle)) ==>
        Some(columns) == Kanban.AddColumn(old(columns), old(newColumnTitle), freshId) &&
        newColumnTitle == ""
    {
      if Blank(newColumnTitle) {
        return;
      }
      columns := columns + [Column(freshId, newColumnTitle, [])];
      newColumnTitle := "";
    }

    /** `deleteColumn(colId)`. */
    method DeleteColumn(colId: string)
      modifies this
      ensures columns == Kanban.DeleteColumn(old(columns), colId)
      ensures newColumnTitle == old(newColumnTitle)
    {
      columns := Kanban.DeleteColumn(columns, colId);
    }

    /** `renameColumn(colId, newTitle)`. */
    method RenameColumn(colId: string, newTitle: string)
      modifies this
      ensures columns == Kanban.RenameColumn(old(columns), colId, newTitle)
      ensures newColumnTitle == old(newColumnTitle)
    {
      columns := Kanban.RenameColumn(columns, colId, newTitle);
    }

    /** `addCard(colId, content)`: blank content is ignored. */
    method AddCard(colId: string, content: string, freshId: string)
      modifies this
      ensures Blank(content) ==> columns == old(columns)
      ensures !Blank(content) ==> Some(columns) == Kanban.AddCard(old(columns), colId, content, freshId)
      ensures newColumnTitle == old(newColumnTitle)
    {
      if Blank(content) {
        return;
      }
      columns := Kanban.AddCard(columns, colId, content, freshId).value;
    }

    /** `deleteCard(colId, cardId)`. */
    method DeleteCard(colId: string, cardId: string)
      modifies this
      ensures columns == Kanban.DeleteCard(old(columns), colId, cardId)
      ensures newColumnTitle == old(newColumnTitle)
    {
      columns := Kanban.DeleteCard(columns, colId, cardId);
    }

    /** `handleCardDrop(toColId)`: the tracker's card drop on the current
        board; the board is replaced only when the tracker hands one back. */
    method CardDrop(toColId: string)
      modifies this, dnd
      ensures dnd.draggedColId == old(dnd.draggedColId)
      ensures newColumnTitle == old(newColumnTitle)
      ensures !DragAndDrop.CardDropApplies(old(dnd.draggedCard), toColId) ==>
        columns == old(columns) && dnd.draggedCard == old(dnd.draggedCard)
      ensures DragAndDrop.CardDropApplies(old(dnd.draggedCard), toColId) ==>
        columns == DropCardColumns(old(columns), old(dnd.draggedCard).value, toColId) &&
        dnd.draggedCard.None?
    {
      var updated := dnd.CardDrop(toColId, columns);
      if updated.Some? {
        columns := updated.value;
      }
    }

    /** `handleColumnDrop(targetColId)`: the tracker's column drop on the
        current board. */
    method ColumnDrop(targetColId: string)
      modifies this, dnd
      ensures dnd.draggedCard == old(dnd.draggedCard)
      ensures newColumnTitle == old(newColumnTitle)
      ensures !DragAndDrop.ColumnDropApplies(old(dnd.draggedColId), targetColId, old(columns)) ==>
        columns == old(columns) && dnd.draggedColId == old(dnd.draggedColId)
      ensures DragAndDrop.ColumnDropApplies(old(dnd.draggedColId), targetColId, old(columns)) ==>
        columns == ReorderColumns(old(columns), old(dnd.draggedColId).value, targetColId) &&
        dnd.draggedColId.None?
    {
      var updated := dnd.ColumnDrop(targetColId, columns);
      if updated.Some? {
        columns := updated.value;
      }
    }
  }
}
